=== FILE: README.md ===
# MVF progress pipeline — a Dafny model

MVF watches a Relion cryo-EM preprocessing project. This project models its
core, leaving out the UI wiring and the file formats:

- **The progress watcher** runs after each CTF estimation job. It finds the
  motion-correction table the CTF results came from (`splitall` on the first
  micrograph name). It appends the micrographs both stages have finished to
  the merged `micrographs.star`. Then it writes the one-line progress hint
  `<table path> <row count>` and touches `RELION_JOB_EXIT_SUCCESS`.
- **The dashboard's polling cache** (`MotionCtfData`) re-reads the hint on
  every poll. It reloads the table only when the hint names a different file
  or count, and it converts the loaded columns into rows for the data table.
- **The dashboard tick** decides whether to publish. It publishes when the
  cache changed or on the first interval after a page load, and otherwise
  prevents the update. A publish carries the counter text and the refreshed
  figures. Start-up fixes the hint path and the poll interval.
- **The figure layout**: the columns of interest, the CTF figure's row count
  and `specs` grid, the histogram cells, and `update_figures`, which copies
  table columns into traces.
- **The schedule editor** resolves a schedule file and prompts for every
  `set_` variable (floats, then booleans, then strings). It writes the
  blocks back in a fixed order, after a backup.

The modules are:

- `Wrappers`: `Option` and `Result`.
- `Text`: Python string behaviour — `isspace`, `split()`, `strip()`,
  `readline`, `int()`, `str(int)`, `startswith`.
- `Paths`: `posixpath` — `split`, `join`, `dirname`, `normpath`, `abspath` —
  and the watcher's `splitall`.
- `Star`: rows, tables and the columnar view.
- `Watcher`, `Cache`, `Figures`, `Dashboard`, `Schedule`: one per source
  file.

Everything outside the process is a parameter:

- readable file contents are maps, and the files that exist are sets (a file
  can exist without being readable);
- the hint path holds a `HintFile`: no regular file, a file that cannot be
  opened, or the file's text;
- the schedule editor's terminal is a sequence of answer lines;
- Python's `float()` is a function parameter `floatOf`;
- the dashboard's working directory is a parameter;
- writes come back as lists of actions.

Facts about the code that the model follows:

- The watcher script has no preview-image queue, no nodes file and no
  failure sentinel. Line 72 of the watcher leaves failure reporting as a TODO.
  Only the success sentinel is modelled.
- The hint is written to `.mvf_progress_hint` in the watcher's working
  directory. The path it records is `join(--o, "micrographs.star")`, which is
  relative when `--o` is. The dashboard reads that path relative to the hint
  file's directory.
- In `update()`, a hint that names a table which cannot be read is an error.
  It is not treated as "no data yet".
- The poll interval is `1000 * cfreq` ms, with `cfreq` defaulting to 10.

## Model

| member | source | states |
|---|---|---|
| Text.Tokens | mvf_app/data.py:16 | `split()` yields only non-empty tokens without whitespace |
| Text.TokensSkipsSpace | mvf_app/data.py:16 | `split()` ignores any run of leading whitespace |
| Text.TokensAfterWord | mvf_app/data.py:16 | a word followed by any non-empty run of whitespace is the first token, and splitting continues after the run |
| Text.TokensOfThree | mvf_app/data.py:16 | a line of three words, with two spaces before the last, splits into exactly those three words |
| Text.TokensOfPair | mvf_app/data.py:16 | splitting `a + " " + b` for non-empty, whitespace-free `a` and `b` yields exactly `[a, b]` |
| Text.FirstLineOfLine | mvf_app/data.py:16 | `readline()` of a line terminated by a newline returns that line without the terminator |
| Text.Strip | scripts/mvf_set_schedule_vars.py:49 | `strip()` never lengthens its argument, and a non-empty result starts and ends with a non-whitespace character |
| Text.StripIsInfix | scripts/mvf_set_schedule_vars.py:81 | the argument is a whitespace prefix, then the result of `strip()`, then a whitespace suffix, so the result is the argument without its outer whitespace |
| Text.StripEmpty | scripts/mvf_set_schedule_vars.py:49-51 | the stripped answer is empty exactly when the answer is all whitespace, which is when the prompt keeps the current value |
| Text.StripIdempotent | scripts/mvf_set_schedule_vars.py:49 | stripping an already stripped answer changes nothing |
| Text.FirstLine | mvf_app/data.py:16 | `readline()` returns a prefix of the text free of line breaks, which stops at the first line break or the end of the text |
| Text.ParseInt | mvf_app/data.py:18 | `int()` accepts exactly an optional sign followed by ASCII digits with single underscores between them; without a minus sign the value is non-negative |
| Text.ParseIntOfDecimal | scripts/mvf_progress_watcher.py:67 | `int(str(n)) == n` for every natural number: the count the watcher writes is read back exactly |
| Text.ParseIntSign | mvf_app/data.py:18 | `int()` of `-` before digit groups is the negated value and of `+` the same value; a sign before anything else, another sign included, is a `ValueError` |
| Text.ParseIntUnderscore | mvf_app/data.py:18 | an underscore between two digit groups is accepted and ignored: `int(a + "_" + b) == int(a + b)` |
| Text.ParseIntLeadingZero | mvf_app/data.py:18 | a leading zero is accepted and does not change the value: `int("0" + s) == int(s)` |
| Text.NatToDecimal | scripts/mvf_progress_watcher.py:67 | `str(n)` of a natural number is a non-empty string of decimal digits |
| Paths.Split | scripts/mvf_progress_watcher.py:12 | `os.path.split`: the tail is the separator-free text after the last `/` |
| Paths.SplitShrinksRelative | scripts/mvf_progress_watcher.py:13-17 | on a relative path that is not already a single component, the head `splitall` continues with is strictly shorter |
| Paths.SplitOfAbsoluteNeverExits | scripts/mvf_progress_watcher.py:13-17 | on an absolute path the exit test never holds and the head stays absolute, so `splitall` never returns |
| Paths.SplitOfRoot | scripts/mvf_progress_watcher.py:12-17 | `split("/")` is `("/", "")`: the loop reaches `/` and stays there forever |
| Paths.SplitAll | scripts/mvf_progress_watcher.py:9-19 | on a relative path `splitall` terminates with at least one component, all separator-free, the last being the path's tail |
| Paths.JoinSplitAll | scripts/mvf_progress_watcher.py:9-19 | joining `splitall(p)` with `/` gives back `p` for a relative path without doubled separators |
| Paths.SplitAllJoin | scripts/mvf_progress_watcher.py:9-19 | `splitall` of components joined by `/` gives back the components, if all but the last are non-empty |
| Paths.Join | scripts/mvf_set_schedule_vars.py:27-30 | `os.path.join(a, b)` is `b` when `b` is absolute; otherwise it starts with `a` and adds `b` and at most one separator |
| Paths.JoinEndsWith | scripts/mvf_set_schedule_vars.py:27-30 | `os.path.join(a, b)` ends with `b` |
| Paths.JoinAll | scripts/mvf_set_schedule_vars.py:29-30 | the several-part `os.path.join` is at least as long as its last part, and is that part when it is absolute |
| Paths.JoinAllEndsWith | scripts/mvf_set_schedule_vars.py:29-30 | the several-part `os.path.join` ends with its last part |
| Paths.TailOfJoin | scripts/mvf_progress_watcher.py:37 | `join(a, b)` for a separator-free `b` has `b` as its last component |
| Paths.DirnameOfJoin | mvf_app/data.py:17 | the directory of `join(d, name)` is `d` again, for a normalised directory `d` |
| Paths.NormPath | mvf_app/app.py:85 | `normpath` never returns the empty string; on an absolute path it returns an absolute path that is all separators or does not end in one |
| Paths.NormPathOfRooted | mvf_app/app.py:85 | `normpath` returns an absolute path with single separators and no empty, "." or ".." components unchanged |
| Paths.SplitOnSlashJoin | mvf_app/app.py:85 | `split('/')` of separator-free components joined by `/` gives back the components |
| Paths.AbsPath | mvf_app/app.py:85 | `abspath` relative to an absolute working directory is absolute, and either all separators or not ending in one |
| Paths.AbsPathOfRooted | mvf_app/app.py:85 | for a clean absolute working directory, `abspath(name)` of a plain name is the directory with `/name` appended, and `abspath` of the directory is the directory |
| Star.Lookup | mvf_app/app.py:62 | a column lookup succeeds exactly when a column of that name exists, and then returns that column's values |
| Star.Overlay | scripts/mvf_progress_watcher.py:52 | `dict.update`: the keys are the union, the updating row wins on shared keys and the other keys keep their values |
| Star.ToColumns | mvf_app/data.py:20 | the columnar view of a row table has one column per label, each as long as the table, with column `j` holding label `j` of every row in order |
| Watcher.MergeNewRows | scripts/mvf_progress_watcher.py:50-53 | the merge loop keeps the previous rows as a prefix; it appends `min(|ctf|-n, |moco|-n)` rows, or none; appended row `j` is `ctf[j]` updated with `moco[j]` |
| Watcher.MergedShape | scripts/mvf_progress_watcher.py:50-53 | the merged table is the previous rows, then one overlaid row per index both sources have beyond them |
| Watcher.MergeUnchangedIff | scripts/mvf_progress_watcher.py:50-51 | the merge leaves the table unchanged exactly when one source has no row beyond the previous output |
| Watcher.MergeIdempotent | scripts/mvf_progress_watcher.py:50-53 | merging the same sources into the merged output again adds nothing |
| Watcher.MergeFromEmpty | scripts/mvf_progress_watcher.py:42-53 | with no previous output and equal-length sources, row `i` of the result is `ctf[i]` updated with `moco[i]` |
| Watcher.MergeExtends | scripts/mvf_progress_watcher.py:50-53 | the previous output is a prefix of the merged table, whose length is the larger of the previous length and the shorter source |
| Watcher.MotionCorTablePath | scripts/mvf_progress_watcher.py:37 | the motion-correction table path exists exactly when the first CTF row has a relative micrograph name; it ends in `corrected_micrographs.star`; an absolute name never terminates |
| Watcher.MotionCorPathOfName | scripts/mvf_progress_watcher.py:37 | the table read for a relative micrograph name always has `corrected_micrographs.star` as its last component |
| Watcher.MotionCorTablePathOfName | scripts/mvf_progress_watcher.py:37 | for the micrograph name `a/b/...` the table is `a/b/corrected_micrographs.star` |
| Watcher.OutputPath | scripts/mvf_progress_watcher.py:41 | the output path's last component is `micrographs.star`, and its directory is `--o` itself when that is a normalised directory |
| Watcher.HintLine | scripts/mvf_progress_watcher.py:64-68 | the hint line for a one-word path parses back, by the dashboard's reader, to exactly that path and count |
| Watcher.PreviousOutput | scripts/mvf_progress_watcher.py:41-46 | a missing output file means the merge starts from no rows, and a readable one from its rows; an output file that exists but cannot be read is an error |
| Watcher.RunWatcher | scripts/mvf_progress_watcher.py:35-74 | a run succeeds exactly when the motion-correction table can be located and read and any existing output can be read; it then writes the merged table, the hint and the sentinel, in that order |
| Watcher.UnreadableOutputStopsRun | scripts/mvf_progress_watcher.py:41-44 | an output file that exists but cannot be read stops the run with an error naming that file |
| Watcher.RunWatcherOrder | scripts/mvf_progress_watcher.py:58-74 | the first write keeps the optics block and the previous rows; the hint announces the written table's path and exact row count; the last write is the success sentinel in the output directory |
| Watcher.OutputIsNotMotionCorTable | scripts/mvf_progress_watcher.py:37-41 | the merged output never coincides with the motion-correction table it reads |
| Watcher.RerunIsStable | scripts/mvf_progress_watcher.py:42-68 | rerunning the watcher on its own output with no new source rows writes the same files |
| Cache.Init | mvf_app/data.py:6-10 | a fresh cache has the hint path, no table, count 0 and no data |
| Cache.ParseHint | mvf_app/data.py:15-18 | the hint parses exactly when its first line splits into two words and the second is an integer; the path is the first word and the count is `int()` of the second |
| Cache.ExtraWordRejected | mvf_app/data.py:16 | a hint line with a third word, even after a run of spaces, is malformed |
| Cache.ResolveDataFile | mvf_app/data.py:17 | an absolute table path is kept; a relative one is joined to the hint file's directory, with a separator unless the directory is empty or already ends in one |
| Cache.Update | mvf_app/data.py:12-26 | a missing hint gives no change; a hint file that cannot be opened is an error; a change happens exactly when the hint's path or count differs and the table is readable, replacing file, count and data together; the poll fails exactly on an unopenable or malformed hint or an unreadable new table |
| Cache.UpdateTwice | mvf_app/data.py:19-26 | polling again with an unchanged hint reports no change and keeps the state |
| Cache.FirstHintIsChange | mvf_app/data.py:6-24 | a fresh cache treats the first readable hint as a change |
| Cache.HintRoundTrip | mvf_app/data.py:15-18 | the watcher's hint line for a non-empty whitespace-free path parses back to exactly that path and count |
| Cache.ToDataTable | mvf_app/data.py:28-32 | no data or no columns gives `[]`; otherwise one row per value of the first requested column, each row holding exactly the requested columns at that index; a missing or short column is an error |
| Cache.DataTableOfColumns | mvf_app/data.py:28-32 | converting the columnar view of a row table back gives each original row restricted to the requested columns |
| Figures.ZipMapDistinct | mvf_app/components.py:16 | `dict(zip(keys, values))` on distinct keys maps each key to its partner value |
| Figures.ColumnsTextMapTotal | mvf_app/components.py:7-16 | there are seven columns of interest and seven labels, and the label map is defined on every column of interest |
| Figures.ColumnsDistinct | mvf_app/components.py:7-14 | the seven columns of interest are pairwise distinct |
| Figures.CtfPlotRowCount | mvf_app/components.py:76 | the CTF figure has one row per CTF column plus two rows for every started group of three histograms |
| Figures.HistogramCell | mvf_app/components.py:95-96 | the 0-based cell of histogram `i` lies below the `n` scatter rows, in one of three grid columns |
| Figures.HistogramCellInverse | mvf_app/components.py:95-96 | the cell determines the histogram: it lies an even number of rows below the scatter rows, and three per row pair plus the column gives back `i` |
| Figures.Specs | mvf_app/components.py:77-82 | the `specs` grid as written has `n + 2(n div 3) + 2` rows of three entries |
| Figures.SpecsMatchRowCountIff | mvf_app/components.py:75-82 | the `specs` grid has `ctf_plot_row_count` rows exactly when `n mod 3 != 0`, and two rows too many otherwise |
| Figures.SpecsMismatchAtThree | mvf_app/components.py:75-82 | for three CTF columns the figure has 5 rows but `specs` has 7 |
| Figures.SpecsCorrected | mvf_app/components.py:77-82 | the corrected grid always has `ctf_plot_row_count` rows of three entries |
| Figures.SpecsCorrectedAgrees | mvf_app/components.py:77-82 | the corrected grid equals the grid as written whenever `n mod 3 != 0` |
| Figures.ConfiguredRowCount | mvf_app/components.py:11-82 | with the four configured CTF columns the figure has 8 rows and the grid as written is the corrected one |
| Figures.HistogramCellsFit | mvf_app/components.py:95-96 | histogram cells are pairwise distinct and lie in the three grid columns; each has room for its two-row span; each is a two-row subplot with a blank below it |
| Figures.HistogramCellFits | mvf_app/components.py:95-96 | the cell of histogram `i` is in one of the three grid columns, has room below it for the two-row span, and is a two-row subplot with a blank below it |
| Figures.CountsRows | mvf_app/components.py:85-86 | the "Counts" titles go on 1-based rows `n+1, n+3, ...`, one per histogram row pair |
| Figures.CountsRowsAreHistogramRows | mvf_app/components.py:85-96 | the "Counts" rows are exactly the 1-based rows on which histograms are placed |
| Figures.OverviewTraces | mvf_app/components.py:47-50 | the overview has one scatter per column of interest, each on its own row of the single grid column |
| Figures.MotionTraces | mvf_app/components.py:60-71 | the motion figure has two traces per motion column; scatters share the top cell, and histograms sit on row 2 in pairwise distinct grid columns |
| Figures.CtfTraces | mvf_app/components.py:87-101 | the CTF figure has two traces per CTF column; the scatters sit in the first grid column on pairwise distinct rows among the first `n` |
| Figures.OverviewShowsOneColumn | mvf_app/components.py:47-50 | the overview has seven scatters, trace `k` showing column of interest `k` on `y` |
| Figures.MotionShowsOneColumn | mvf_app/components.py:60-71 | the motion figure has six traces, each showing one motion column |
| Figures.CtfShowsOneColumn | mvf_app/components.py:87-101 | the CTF figure has eight traces, each showing one CTF column |
| Figures.TraceMetaNamesColumnsOfInterest | mvf_app/components.py:47-101 | every trace's `meta` has one axis (`y` for scatters, `x` for histograms) naming a column of interest, and every such column is named by some trace |
| Figures.CtfHistogramsOnGrid | mvf_app/components.py:95-101 | every CTF histogram is added to a two-row subplot cell of the grid |
| Figures.Refresh | mvf_app/components.py:105-108 | refreshing a trace sets each axis its `meta` names to that column, keeps every other axis, adds no other axis and keeps kind, name, `meta` and cell |
| Figures.RefreshIdempotent | mvf_app/components.py:105-108 | a refreshed trace can be refreshed again from the same table, and that changes nothing |
| Figures.UpdateFiguresIdempotent | mvf_app/components.py:105-108 | running `update_figures` again on the same table after it completed changes nothing |
| Figures.FirstStale | mvf_app/components.py:105-108 | the first trace naming a column the table lacks, with every trace before it refreshable |
| Figures.UpdateFigures | mvf_app/components.py:105-108 | `update_figures` completes exactly when no trace names a missing column; the traces before the first failing one are refreshed and the rest are untouched |
| Figures.UpdateAllFiguresIff | mvf_app/components.py:105-108 | the configured figures refresh completely exactly when the table has all seven columns of interest |
| Dashboard.ConfigureWatchesProjectDir | mvf_app/app.py:85 | from a clean working directory, the hint file lies in that directory by default, and in its subdirectory `name` when that is the project directory given |
| Dashboard.Configure | mvf_app/app.py:85-87 | the hint path is absolute, its directory is `abspath(project_dir)` and its name `.mvf_progress_hint`; the interval is `1000 * cfreq` ms |
| Dashboard.CounterText | mvf_app/app.py:64 | the counter text is the fixed prefix followed by a number that `int()` reads back as the count |
| Dashboard.Started | mvf_app/app.py:86 | after `main` the cache is a fresh one on the hint path and the figures are as built |
| Dashboard.ProgressTick | mvf_app/app.py:59-68 | no cache means no update; a failed poll raises; after a successful poll the cache has advanced, and the update is prevented exactly when nothing changed and this is not the first interval; when the poll changed something or this is the first interval, the tick publishes the first column's length if the data is non-empty and every trace refreshes, and raises otherwise; a publish carries the fully refreshed figures |
| Dashboard.ReloadRepublishes | mvf_app/app.py:59-66 | after a publishing tick, the first interval of a reloaded page publishes the same counter and figures again and leaves the state as it was |
| Dashboard.SecondTickPrevents | mvf_app/app.py:61-68 | a second tick with the same hint and a non-zero interval count prevents the update |
| Dashboard.HintLineLoads | mvf_app/app.py:61 | a fresh cache fed the watcher's hint line loads the named table and reports a change |
| Dashboard.ColumnsOfInterestSuffice | mvf_app/app.py:65 | a loaded table with every column of interest lets all figures refresh |
| Dashboard.LoadedTickPublishes | mvf_app/app.py:59-66 | a tick whose poll loads a non-empty table from which every trace can be refreshed publishes that table's row count |
| Dashboard.FirstTickPublishes | mvf_app/app.py:59-66 | the first tick of a started dashboard that reads a hint line publishes the announced row count |
| Dashboard.OutputPathIsWord | scripts/mvf_progress_watcher.py:41-67 | for an output directory without whitespace the merged table's path is a non-empty word, so the hint line stays two words |
| Dashboard.WatcherThenFirstTick | mvf_app/app.py:59-66 | after a successful watcher run, the dashboard's first tick over the written hint publishes the merged table's row count |
| Schedule.Resolve | scripts/mvf_set_schedule_vars.py:24-33 | the schedule file is the argument if it is a file, else `<arg>/schedule.star` for a directory, else `Schedules/<arg>/schedule.star`; it is none exactly when none exists, and always an existing file |
| Schedule.ResolveBareName | scripts/mvf_set_schedule_vars.py:29-30 | a bare name that is neither a file nor a directory resolves to `Schedules/<name>/schedule.star` |
| Schedule.StrToBool | scripts/mvf_set_schedule_vars.py:69 | `strtobool` maps y/yes/t/true/on/1 to 1 and n/no/f/false/off/0 to 0, in any letter case, and rejects everything else |
| Schedule.Accept | scripts/mvf_set_schedule_vars.py:52-86 | a float answer is accepted when `float()` parses it and stores that number; a bool answer when `strtobool` does, storing 0 or 1; a string answer when it has no whitespace, storing the answer itself |
| Schedule.Prompt | scripts/mvf_set_schedule_vars.py:48-57 | the prompt loop fails only at end of input; it consumes at least one answer; any value it sets is acceptable for the variable's kind |
| Schedule.PromptTakesFirstDecisive | scripts/mvf_set_schedule_vars.py:48-57 | the loop's outcome is the decision of the first answer that is blank or accepted, and the answers after it remain unread |
| Schedule.PromptWithoutDecisive | scripts/mvf_set_schedule_vars.py:48-57 | without a blank or accepted answer the loop reads to end of input |
| Schedule.EditRow | scripts/mvf_set_schedule_vars.py:44-57 | a row is processed exactly when it has both labels and a string name (and, for a `set_` variable, a displayable value and a decisive answer); a `set_` row gets the value the prompt accepted, or keeps its value on a blank answer; other rows are unchanged and read no answers |
| Schedule.EditRows | scripts/mvf_set_schedule_vars.py:44-86 | a successful table edit keeps the length; each row differs from its original at most in the reset value, and only for `set_` rows; at least one answer is read per `set_` row |
| Schedule.AcceptedAnswerSetsRow | scripts/mvf_set_schedule_vars.py:48-86 | an accepted answer sets a `set_` row's reset value to the value it stands for and consumes exactly that answer |
| Schedule.AcceptedAnswersSet | scripts/mvf_set_schedule_vars.py:44-86 | with one accepted answer per `set_` variable, the `k`-th `set_` row of the table gets the value of the `k`-th answer, every other row is unchanged, and exactly those answers are consumed |
| Schedule.BlankAnswersKeep | scripts/mvf_set_schedule_vars.py:49-51 | one blank answer per `set_` variable leaves the table unchanged |
| Schedule.EditThenKeep | scripts/mvf_set_schedule_vars.py:43-86 | answering blank to every prompt of an edited table gives the edited table back |
| Schedule.EditBlock | scripts/mvf_set_schedule_vars.py:43-86 | a dictionary block succeeds only when empty and is left alone; a loop table is replaced by its row-by-row edit, which succeeds exactly when the row edit does |
| Schedule.EditIn | scripts/mvf_set_schedule_vars.py:43-75 | an absent block is skipped; a present block is replaced by its edit, which succeeds exactly when that edit does; editing a block changes no other block |
| Schedule.EditSchedule | scripts/mvf_set_schedule_vars.py:43-86 | editing keeps the set of blocks and changes nothing outside the three variable blocks |
| Schedule.EditScheduleBlocks | scripts/mvf_set_schedule_vars.py:43-86 | a successful edit handles the float, bool and string blocks in that order, each reading the answers the previous one left, and each present block ends up as its own edit |
| Schedule.BlankScheduleKeeps | scripts/mvf_set_schedule_vars.py:41-86 | blank answers throughout leave the schedule as it was read |
| Schedule.WriteTables | scripts/mvf_set_schedule_vars.py:95-97 | tables are written in the given order, stopping at the first missing block |
| Schedule.WriteSchedule | scripts/mvf_set_schedule_vars.py:93-97 | the file is opened first; it gets `schedule_general` and then the six tables in order, exactly when all seven blocks exist |
| Schedule.Run | scripts/mvf_set_schedule_vars.py:24-97 | nothing on disk is touched unless the file resolves, parses and is fully edited; the backup rename then comes before the file is truncated |
| Schedule.RunWritesEdited | scripts/mvf_set_schedule_vars.py:88-97 | a run that finishes editing renames the file to `.bak` unless told not to, then truncates it and writes only blocks of the edited schedule to it; it finishes exactly when all seven blocks are present, and then writes the general block followed by the six tables in their fixed order |
| Schedule.BlankRunRewritesOriginal | scripts/mvf_set_schedule_vars.py:41-97 | answering every prompt with an empty line rewrites the schedule exactly as it was read |

## Left out

- File I/O and the STAR reader and writer are not modelled. Tables are row maps or columns. A file that fails to read is simply absent from the map of readable files. The exact text written is not modelled.
- The optics block is passed through as an opaque table. The micrographs block is written as the merged rows.
- Preview images, the worker pool and the nodes file are not modelled: the watcher script generates no preview images, runs no worker pool and writes no nodes file.
- Dash, Flask and plotly are not modelled: the layout, the styling and `show()`. A trace is its kind, name, `meta`, data axes and subplot cell.
- argparse is not modelled. Its parsed values are parameters, and a flag error exits before anything modelled happens.
- `input()` is replaced by a sequence of answer lines. The prompt text, and the other messages the scripts print, are not modelled.
- Float parsing is left out. Python's `float()` is the parameter `floatOf`, and only finite values are represented, as `real`.
- `Text.ParseInt` does not model non-ASCII digits or surrounding whitespace. Those never occur in a token taken from `split()` of a watcher-written hint.
- `Paths.SplitAll` requires a relative path. On an absolute path the source loops forever. The watcher model reports this as `NonTerminating` instead, justified by `Paths.SplitOfAbsoluteNeverExits`.
- `Figures.Refresh`: the refresh is shown setting all axes of a trace at once. Every configured trace has exactly one `meta` axis, so this matches the source's loop.
- The dashboard's current directory and the project-directory argument are parameters of `Dashboard.Configure`.
- Symbolic links and path aliasing are not modelled. Two different strings are two different files.
- Schedule values are modelled as strings, integers or reals, as the reader produces them. `bool()` of the current boolean value is only displayed, so it is not modelled.
- A write failure after the schedule file is truncated is not modelled.

## Findings

| source | as written | input that shows it | evidently intended | confidence | as-written member | corrected member |
|---|---|---|---|---|---|---|
| mvf_app/components.py:77-82 | the `specs` grid always appends a partial histogram row pair: a row of `n mod 3` two-row cells, padded to three, plus a blank row | three CTF columns: `ctf_plot_row_count` is 5 but `specs` has 7 rows, which `make_subplots` rejects | add the partial pair only when `n mod 3 > 0`, as `ctf_plot_row_count` does | not executed; latent with the four configured columns | Figures.SpecsMismatchAtThree | Figures.SpecsCorrected |

=== FILE: cache.dfy ===
/** The dashboard's polling cache (`MotionCtfData`): it remembers which table
    file and row count it last loaded, re-reads the hint file on every poll
    and reloads the table only when the hint names a different file or count. */
module Cache {
  import opened Wrappers
  import opened Text
  import opened Paths
  import opened Star

  datatype CacheState = CacheState(
    path: string,             // the hint file
    dataFile: Option<string>, // the table last loaded
    dataCount: int,           // the row count the hint announced for it
    data: Option<Columns>)    // the loaded table, column by column

  datatype CacheError =
    | MalformedHint(tokens: nat)   // the first line does not hold exactly two words
    | BadCount(token: string)      // the second word is not an integer
    | UnreadableHint(path: string) // the hint file exists but cannot be opened
    | UnreadableTable(path: string)

  /** What a poll finds at the hint path: no regular file, a file that
      cannot be opened for reading, or the file's contents. */
  datatype HintFile = Missing | Unopenable | Present(contents: string)

  /** The result of one poll: the new state and whether it changed. */
  datatype Polled = Polled(state: CacheState, changed: bool)

  function Init(hintPath: string): (st: CacheState)
    ensures st.path == hintPath
    ensures st.dataFile.None? && st.dataCount == 0 && st.data.None?
  {
    CacheState(hintPath, None, 0, None)
  }

  /** Parses the first line of the hint file into a table path and a count. */
  function ParseHint(contents: string): (r: Result<(string, int), CacheError>)
    ensures r.Ok? <==>
              |Tokens(FirstLine(contents))| == 2 && ParseInt(Tokens(FirstLine(contents))[1]).Some?
    ensures r.Ok? ==> r.value.0 != [] && !HasSpace(r.value.0)
    ensures r.Ok? ==> r.value.0 == Tokens(FirstLine(contents))[0]
    ensures r.Ok? ==> r.value.1 == ParseInt(Tokens(FirstLine(contents))[1]).value
  {
    var words := Tokens(FirstLine(contents));
    if |words| != 2 then Err(MalformedHint(|words|))
    else match ParseInt(words[1])
      case None => Err(BadCount(words[1]))
      case Some(c) =>
        assert words[0] in words;
        Ok((words[0], c))
  }

  /** The table path of a hint, read relative to the hint file's directory;
      an absolute path stands as written. */
  function ResolveDataFile(hintPath: string, file: string): (r: string)
    ensures IsAbs(file) ==> r == file
    ensures !IsAbs(file) && Dirname(hintPath) != [] && Dirname(hintPath)[|Dirname(hintPath)| - 1] != '/' ==>
              r == Dirname(hintPath) + "/" + file
    ensures !IsAbs(file) && Dirname(hintPath) != [] && Dirname(hintPath)[|Dirname(hintPath)| - 1] == '/' ==>
              r == Dirname(hintPath) + file
    ensures !IsAbs(file) && Dirname(hintPath) == [] ==> r == file
  {
    Join(Dirname(hintPath), file)
  }

  /** `update()`: `hint` is what the hint path holds; `tables` maps each
      readable table file to its contents. */
  function Update(st: CacheState, hint: HintFile, tables: map<string, Columns>): (r: Result<Polled, CacheError>)
    ensures hint.Missing? ==> r == Ok(Polled(st, false))
    ensures hint.Unopenable? ==> r == Err(UnreadableHint(st.path))
    ensures r.Ok? && !r.value.changed ==> r.value.state == st
    ensures r.Ok? && r.value.changed ==>
              && hint.Present? && ParseHint(hint.contents).Ok?
              && var (file, count) := ParseHint(hint.contents).value;
              && var resolved := ResolveDataFile(st.path, file);
              && (st.dataFile != Some(resolved) || st.dataCount != count)
              && resolved in tables
              && r.value.state == st.(dataFile := Some(resolved), dataCount := count, data := Some(tables[resolved]))
    ensures hint.Present? && ParseHint(hint.contents).Ok? ==>
              var (file, count) := ParseHint(hint.contents).value;
              var resolved := ResolveDataFile(st.path, file);
              (r.Ok? && r.value.changed <==> (st.dataFile != Some(resolved) || st.dataCount != count) && resolved in tables)
    ensures r.Err? <==>
              || hint.Unopenable?
              || (&& hint.Present?
                  && (|| ParseHint(hint.contents).Err?
                      || var (file, count) := ParseHint(hint.contents).value;
                         var resolved := ResolveDataFile(st.path, file);
                         (st.dataFile != Some(resolved) || st.dataCount != count) && resolved !in tables))
  {
    match hint
    case Missing => Ok(Polled(st, false))
    case Unopenable => Err(UnreadableHint(st.path))
    case Present(contents) =>
      var (file, count) :- ParseHint(contents);
      var resolved := ResolveDataFile(st.path, file);
      if count != st.dataCount || Some(resolved) != st.dataFile then
        if resolved in tables then
          Ok(Polled(st.(dataFile := Some(resolved), dataCount := count, data := Some(tables[resolved])), true))
        else Err(UnreadableTable(resolved))
      else Ok(Polled(st, false))
  }

  /** Polling twice with nothing changed in between: the second poll reports
      no change and keeps the state. */
  lemma UpdateTwice(st: CacheState, hint: HintFile, tables: map<string, Columns>)
    requires Update(st, hint, tables).Ok?
    ensures var st' := Update(st, hint, tables).value.state;
            Update(st', hint, tables) == Ok(Polled(st', false))
  {
  }

  /** A fresh cache treats the first readable hint as a change. */
  lemma FirstHintIsChange(hintPath: string, hint: string, tables: map<string, Columns>)
    requires ParseHint(hint).Ok?
    requires ResolveDataFile(hintPath, ParseHint(hint).value.0) in tables
    ensures Update(Init(hintPath), Present(hint), tables).Ok?
    ensures Update(Init(hintPath), Present(hint), tables).value.changed
  {
  }

  /** The hint line the watcher writes parses back to the same path and count. */
  lemma HintRoundTrip(path: string, count: nat)
    requires path != [] && !HasSpace(path)
    ensures ParseHint(path + " " + NatToDecimal(count) + "\n") == Ok((path, count))
  {
    var digits := NatToDecimal(count);
    assert !HasSpace(digits) by {
      forall i | 0 <= i < |digits|
        ensures !IsSpace(digits[i])
      {
        assert IsDigit(digits[i]);
      }
    }
    var line := path + " " + digits;
    assert forall i :: 0 <= i < |line| ==> line[i] != '\n' && line[i] != '\r' by {
      forall i | 0 <= i < |line|
        ensures line[i] != '\n' && line[i] != '\r'
      {
        if i < |path| {
          assert line[i] == path[i] && !IsSpace(path[i]);
        } else if i > |path| {
          assert line[i] == digits[i - |path| - 1];
          assert IsDigit(digits[i - |path| - 1]);
        }
      }
    }
    FirstLineOfLine(line);
    assert path + " " + digits + "\n" == line + "\n";
    TokensOfPair(path, digits);
    ParseIntOfDecimal(count);
  }

  /** A hint line with a third word, even after a run of spaces, is
      malformed: unpacking `split()` into two names fails. */
  lemma ExtraWordRejected(a: string, b: string, c: string)
    requires a != [] && !HasSpace(a)
    requires b != [] && !HasSpace(b)
    requires c != [] && !HasSpace(c)
    ensures ParseHint(a + " " + b + "  " + c + "\n") == Err(MalformedHint(3))
  {
    var line := a + " " + b + "  " + c;
    SpacedWordsHaveNoBreak(a, b, c);
    FirstLineOfLine(line);
    assert a + " " + b + "  " + c + "\n" == line + "\n";
    TokensOfThree(a, b, c);
  }

  lemma SpacedWordsHaveNoBreak(a: string, b: string, c: string)
    requires !HasSpace(a) && !HasSpace(b) && !HasSpace(c)
    ensures var line := a + " " + b + "  " + c;
            forall i :: 0 <= i < |line| ==> line[i] != '\n' && line[i] != '\r'
  {
    var line := a + " " + b + "  " + c;
    forall i | 0 <= i < |line|
      ensures line[i] != '\n' && line[i] != '\r'
    {
      if i < |a| {
        assert line[i] == a[i] && !IsSpace(a[i]);
      } else if |a| < i < |a| + 1 + |b| {
        assert line[i] == b[i - |a| - 1] && !IsSpace(b[i - |a| - 1]);
      } else if i >= |a| + |b| + 3 {
        assert line[i] == c[i - |a| - |b| - 3] && !IsSpace(c[i - |a| - |b| - 3]);
      }
    }
  }

  // ---------------------------------------------------------------------------
  // to_datatable_format

  datatype TableError = NoColumnsRequested | MissingColumn(name: string) | ShortColumns

  /** Every requested column exists and has at least `n` values. */
  predicate ColumnsCover(cols: Columns, columns: seq<string>, n: nat) {
    forall c :: c in columns ==> Lookup(cols, c).Some? && |Lookup(cols, c).value| >= n
  }

  /** The loaded table as the data-table widget wants it: one map per row
      holding exactly the requested columns. No data (or an empty table)
      gives no rows; the row count is that of the first requested column. */
  function ToDataTable(data: Option<Columns>, columns: seq<string>): (r: Result<seq<Row>, TableError>)
    ensures data.None? || data.value == [] ==> r == Ok([])
    ensures data.Some? && data.value != [] ==>
              (r.Ok? <==> columns != [] && Lookup(data.value, columns[0]).Some? &&
                          (|Lookup(data.value, columns[0]).value| == 0 ||
                           ColumnsCover(data.value, columns, |Lookup(data.value, columns[0]).value|)))
    ensures data.Some? && data.value != [] && r.Ok? ==>
              && |r.value| == |Lookup(data.value, columns[0]).value|
              && forall i :: 0 <= i < |r.value| ==>
                   && r.value[i].Keys == set c | c in columns
                   && forall c :: c in columns ==> c in r.value[i] && r.value[i][c] == Lookup(data.value, c).value[i]
  {
    if data.None? || data.value == [] then Ok([])
    else if columns == [] then Err(NoColumnsRequested)
    else match Lookup(data.value, columns[0])
      case None => Err(MissingColumn(columns[0]))
      case Some(first) =>
        var n := |first|;
        if n == 0 then Ok([])
        else if !ColumnsCover(data.value, columns, n) then Err(ShortColumns)
        else Ok(seq(n, i requires 0 <= i < n =>
                  map c | c in columns :: Lookup(data.value, c).value[i]))
  }

  lemma LookupToColumns(t: Table, names: seq<string>, j: nat)
    requires RowsHave(t, names) && j < |names|
    ensures Lookup(ToColumns(t, names), names[j]).Some?
    ensures Lookup(ToColumns(t, names), names[j]).value == seq(|t|, i requires 0 <= i < |t| => t[i][names[j]])
  {
    LookupFirst(ToColumns(t, names), names[j], j);
  }

  lemma {:induction false} LookupFirst(cols: Columns, name: string, j: nat)
    requires j < |cols| && cols[j].name == name
    ensures Lookup(cols, name).Some?
    ensures exists k :: 0 <= k <= j && cols[k].name == name && Lookup(cols, name).value == cols[k].values
  {
    if cols[0].name != name {
      LookupFirst(cols[1..], name, j - 1);
      var k :| 0 <= k <= j - 1 && cols[1..][k].name == name && Lookup(cols[1..], name).value == cols[1..][k].values;
      assert cols[k + 1] == cols[1..][k];
    }
  }

  /** Turning the columnar view of a row table back into rows gives each
      row restricted to the requested columns. */
  lemma DataTableOfColumns(t: Table, names: seq<string>, columns: seq<string>)
    requires RowsHave(t, names) && names != []
    requires columns != [] && forall c :: c in columns ==> c in names
    ensures ToDataTable(Some(ToColumns(t, names)), columns) ==
              Ok(seq(|t|, i requires 0 <= i < |t| => map c | c in columns :: t[i][c]))
  {
    var cols := ToColumns(t, names);
    forall c | c in columns
      ensures Lookup(cols, c).Some? && Lookup(cols, c).value == seq(|t|, i requires 0 <= i < |t| => t[i][c])
    {
      var j :| 0 <= j < |names| && names[j] == c;
      LookupToColumns(t, names, j);
    }
    var r := ToDataTable(Some(cols), columns);
    assert cols != [];
    var want := seq(|t|, i requires 0 <= i < |t| => map c | c in columns :: t[i][c]);
    if |t| > 0 {
      assert columns[0] in columns;
      assert |Lookup(cols, columns[0]).value| == |t|;
      assert ColumnsCover(cols, columns, |t|);
      assert r.Ok?;
      assert |r.value| == |want|;
      forall i | 0 <= i < |t|
        ensures r.value[i] == want[i]
      {
        assert r.value[i].Keys == want[i].Keys;
        forall c | c in columns
          ensures r.value[i][c] == want[i][c]
        {
          assert Lookup(cols, c).value[i] == t[i][c];
        }
      }
      assert r.value == want;
    }
  }
}

=== FILE: dashboard.dfy ===
/** The dashboard server: its start-up configuration and the timer callback
    that polls the cache and decides whether to republish the figures. */
module Dashboard {
  import opened Wrappers
  import opened Text
  import opened Paths
  import opened Star
  import opened Cache
  import opened Figures
  import Watcher

  const DefaultPollSeconds := 10
  const CounterPrefix := "Total processed micrographs: "

  datatype ServerConfig = ServerConfig(hintPath: string, intervalMs: int)

  /** `main`: the hint file sits in the project directory (by default the
      working directory), made absolute; clients poll every `cfreq` seconds. */
  function Configure(cwd: string, projectDir: Option<string>, cfreq: int): (cfg: ServerConfig)
    requires IsAbs(cwd)
    ensures var dir := AbsPath(cwd, if projectDir.Some? then projectDir.value else cwd);
            && IsAbs(cfg.hintPath)
            && Dirname(cfg.hintPath) == dir
            && Split(cfg.hintPath).1 == Watcher.HintFileName
            && (!AllSlashes(dir) ==> cfg.hintPath == dir + "/" + Watcher.HintFileName)
            && (AllSlashes(dir) ==> cfg.hintPath == dir + Watcher.HintFileName)
    ensures cfg.intervalMs == 1000 * cfreq
  {
    var dir := AbsPath(cwd, if projectDir.Some? then projectDir.value else cwd);
    Watcher.ConstantNamesHaveNoSlash();
    DirnameOfJoin(dir, Watcher.HintFileName);
    assert Watcher.HintFileName[0] != '/';
    ServerConfig(Join(dir, Watcher.HintFileName), 1000 * cfreq)
  }

  /** From a clean working directory, the hint file sits in that directory by
      default, and in its subdirectory `name` when that is the project
      directory given. */
  lemma ConfigureWatchesProjectDir(comps: seq<string>, name: string, cfreq: int)
    requires AllPlain(comps) && IsPlainComponent(name)
    ensures Dirname(Configure(Rooted(comps), None, cfreq).hintPath) == Rooted(comps)
    ensures Dirname(Configure(Rooted(comps), Some(name), cfreq).hintPath) == Rooted(comps + [name])
  {
    AbsPathOfRooted(comps, name);
  }

  datatype AppState = AppState(cache: Option<MotionCtfCache>, figures: seq<Trace>)

  /** The cache object, once `main` has created it. */
  type MotionCtfCache = CacheState

  /** The state before `main` runs: no cache, the figures as built. */
  function Unstarted(): AppState {
    AppState(None, AllTraces())
  }

  /** The state `main` leaves: a fresh cache on the configured hint file. */
  function Started(app: AppState, cfg: ServerConfig): (app': AppState)
    ensures app'.cache == Some(Init(cfg.hintPath)) && app'.figures == app.figures
  {
    app.(cache := Some(Init(cfg.hintPath)))
  }

  datatype TickError = HintFailed(error: CacheError) | NoDataLoaded | MissingFigureColumn

  datatype TickOutcome = Publish(counter: string) | PreventUpdate | Raised(error: TickError)

  datatype Tick = Tick(app: AppState, outcome: TickOutcome)

  /** The counter text: the fixed prefix, then the count, which reads back
      as `n`. */
  function CounterText(n: nat): (text: string)
    ensures CounterPrefix <= text
    ensures ParseInt(text[|CounterPrefix|..]) == Some(n)
  {
    ParseIntOfDecimal(n);
    assert (CounterPrefix + NatToDecimal(n))[|CounterPrefix|..] == NatToDecimal(n);
    CounterPrefix + NatToDecimal(n)
  }

  /** `motion_ctf_progress_updater`: with a cache, poll it; publish when the
      poll saw a change or this is the first tick after the page loaded. The
      count is the length of the loaded table's first column. */
  function ProgressTick(app: AppState, nIntervals: int, hint: HintFile, tables: map<string, Columns>): (t: Tick)
    ensures app.cache.None? ==> t == Tick(app, PreventUpdate)
    ensures t.outcome.PreventUpdate? ==> t.app == app
    ensures app.cache.Some? && Update(app.cache.value, hint, tables).Err? ==>
              t == Tick(app, Raised(HintFailed(Update(app.cache.value, hint, tables).error)))
    ensures app.cache.Some? && Update(app.cache.value, hint, tables).Ok? ==>
              var polled := Update(app.cache.value, hint, tables).value;
              && t.app.cache == Some(polled.state)
              && (t.outcome.PreventUpdate? <==> !polled.changed && nIntervals != 0)
    ensures app.cache.Some? && Update(app.cache.value, hint, tables).Ok? ==>
              var polled := Update(app.cache.value, hint, tables).value;
              var data := polled.state.data;
              (polled.changed || nIntervals == 0) ==>
                if data.Some? && data.value != [] && UpdateFigures(app.figures, data.value).Done? then
                  t.outcome == Publish(CounterText(|data.value[0].values|))
                else t.outcome.Raised?
    ensures t.outcome.Publish? ==>
              && app.cache.Some? && t.app.cache.Some?
              && var data := t.app.cache.value.data;
              && data.Some? && data.value != []
              && t.outcome.counter == CounterText(|data.value[0].values|)
              && UpdateFigures(app.figures, data.value) == Done(t.app.figures)
  {
    match app.cache
    case None => Tick(app, PreventUpdate)
    case Some(cache) =>
      match Update(cache, hint, tables)
      case Err(e) => Tick(app, Raised(HintFailed(e)))
      case Ok(polled) =>
        var app1 := app.(cache := Some(polled.state));
        if polled.changed || nIntervals == 0 then
          match polled.state.data
          case None => Tick(app1, Raised(NoDataLoaded))
          case Some(cols) =>
            if cols == [] then Tick(app1, Raised(NoDataLoaded))
            else
              var count := |cols[0].values|;
              match UpdateFigures(app.figures, cols)
              case Done(fs) => Tick(app1.(figures := fs), Publish(CounterText(count)))
              case Aborted(fs) => Tick(app1.(figures := fs), Raised(MissingFigureColumn))
        else Tick(app, PreventUpdate)
  }

  /** After a tick whose poll succeeded, a later tick that is not the first
      and sees the same hint and tables publishes nothing. */
  lemma SecondTickPrevents(app: AppState, n1: int, n2: int, hint: HintFile, tables: map<string, Columns>)
    requires app.cache.Some? && Update(app.cache.value, hint, tables).Ok?
    requires n2 != 0
    ensures ProgressTick(ProgressTick(app, n1, hint, tables).app, n2, hint, tables).outcome == PreventUpdate
  {
    var t1 := ProgressTick(app, n1, hint, tables);
    UpdateTwice(app.cache.value, hint, tables);
    assert t1.app.cache == Some(Update(app.cache.value, hint, tables).value.state);
  }

  /** A page load (interval count 0) after a publishing tick, with the same
      hint and tables, publishes the same counter and figures again. */
  lemma ReloadRepublishes(app: AppState, n: int, hint: HintFile, tables: map<string, Columns>)
    requires ProgressTick(app, n, hint, tables).outcome.Publish?
    ensures var t1 := ProgressTick(app, n, hint, tables);
            ProgressTick(t1.app, 0, hint, tables) == t1
  {
    var t1 := ProgressTick(app, n, hint, tables);
    UpdateTwice(app.cache.value, hint, tables);
    var cols := t1.app.cache.value.data.value;
    UpdateFiguresIdempotent(app.figures, cols);
  }

  // ---------------------------------------------------------------------------
  // Watcher to dashboard

  lemma JoinHasNoSpace(a: string, b: string)
    requires !HasSpace(a) && !HasSpace(b)
    ensures !HasSpace(Join(a, b))
  {
    var p := Join(a, b);
    forall i | 0 <= i < |p|
      ensures !IsSpace(p[i])
    {
      if !IsAbs(b) && !(a == [] || a[|a| - 1] == '/') {
        assert p == a + "/" + b;
        if i < |a| {
          assert p[i] == a[i];
        } else if i > |a| {
          assert p[i] == b[i - |a| - 1];
        }
      } else if !IsAbs(b) {
        if i < |a| {
          assert p[i] == a[i];
        } else {
          assert p[i] == b[i - |a|];
        }
      }
    }
  }

  lemma MergedTableNameHasNoSpace()
    ensures !HasSpace(Watcher.MergedTableName)
  {
    var s := Watcher.MergedTableName;
    forall i | 0 <= i < |s|
      ensures !IsSpace(s[i])
    {
    }
  }

  /** The hint line the watcher writes for the table `out` makes a fresh
      cache load that table, resolved against the hint file's directory, with
      the announced row count. */
  lemma HintLineLoads(out: string, count: nat, hintPath: string, tables: map<string, Columns>)
    requires out != [] && !HasSpace(out)
    requires ResolveDataFile(hintPath, out) in tables
    ensures var resolved := ResolveDataFile(hintPath, out);
            Update(Init(hintPath), Present(Watcher.HintLine(out, count)), tables) ==
              Ok(Polled(CacheState(hintPath, Some(resolved), count, Some(tables[resolved])), true))
  {
    HintRoundTrip(out, count);
  }

  /** A columnar table holding every column of interest refreshes every
      configured trace. */
  lemma ColumnsOfInterestSuffice(t: Table, names: seq<string>)
    requires RowsHave(t, names)
    requires forall c :: c in ColumnsOfInterest ==> c in names
    ensures UpdateFigures(AllTraces(), ToColumns(t, names)).Done?
  {
    var cols := ToColumns(t, names);
    forall i | 0 <= i < |ColumnsOfInterest|
      ensures HasColumn(cols, ColumnsOfInterest[i])
    {
      assert ColumnsOfInterest[i] in ColumnsOfInterest;
      var j :| 0 <= j < |names| && names[j] == ColumnsOfInterest[i];
      LookupToColumns(t, names, j);
    }
    UpdateAllFiguresIff(cols);
  }

  /** A freshly started dashboard whose first tick reads a watcher hint line
      for a table holding every column of interest publishes the row count. */
  lemma FirstTickPublishes(out: string, t: Table, names: seq<string>, cwd: string, cfreq: int, n: int,
                           tables: map<string, Columns>)
    requires out != [] && !HasSpace(out)
    requires IsAbs(cwd)
    requires names != [] && RowsHave(t, names)
    requires forall c :: c in ColumnsOfInterest ==> c in names
    requires var hintPath := Configure(cwd, None, cfreq).hintPath;
             && ResolveDataFile(hintPath, out) in tables
             && tables[ResolveDataFile(hintPath, out)] == ToColumns(t, names)
    ensures var app := Started(Unstarted(), Configure(cwd, None, cfreq));
            ProgressTick(app, n, Present(Watcher.HintLine(out, |t|)), tables).outcome == Publish(CounterText(|t|))
  {
    var cfg := Configure(cwd, None, cfreq);
    var app := Started(Unstarted(), cfg);
    var hint := Watcher.HintLine(out, |t|);
    HintLineLoads(out, |t|, cfg.hintPath, tables);
    ColumnsOfInterestSuffice(t, names);
    var cols := ToColumns(t, names);
    assert Update(app.cache.value, Present(hint), tables).value.state.data == Some(cols);
    LoadedTickPublishes(app, n, Present(hint), tables, cols);
    assert |cols[0].values| == |t|;
  }

  /** A poll that loads a non-empty table every trace can be refreshed from
      publishes that table's row count, and so does the first interval after
      a page load even when the poll saw no change. */
  lemma LoadedTickPublishes(app: AppState, n: int, hint: HintFile, tables: map<string, Columns>, cols: Columns)
    requires app.cache.Some? && Update(app.cache.value, hint, tables).Ok?
    requires Update(app.cache.value, hint, tables).value.changed || n == 0
    requires Update(app.cache.value, hint, tables).value.state.data == Some(cols)
    requires cols != [] && UpdateFigures(app.figures, cols).Done?
    ensures ProgressTick(app, n, hint, tables).outcome == Publish(CounterText(|cols[0].values|))
  {
  }

  /** The table path the watcher writes to is a non-empty word. */
  lemma OutputPathIsWord(outDir: string)
    requires !HasSpace(outDir)
    ensures Watcher.OutputPath(outDir) != [] && !HasSpace(Watcher.OutputPath(outDir))
  {
    MergedTableNameHasNoSpace();
    JoinHasNoSpace(outDir, Watcher.MergedTableName);
    Watcher.ConstantNamesHaveNoSlash();
    TailOfJoin(outDir, Watcher.MergedTableName);
  }

  /** End to end: after a successful watcher run, a freshly started dashboard
      in the same project directory whose first tick reads the hint the run
      wrote (and the merged table, as columns) publishes the merged row count. */
  lemma WatcherThenFirstTick(
    outDir: string, ctf: Watcher.CtfStar, files: map<string, Table>, existing: set<string>,
    cwd: string, cfreq: int, n: int,
    names: seq<string>, tables: map<string, Columns>)
    requires Watcher.RunWatcher(outDir, ctf, files, existing).Ok?
    requires !HasSpace(outDir)
    requires IsAbs(cwd)
    requires names != [] && forall c :: c in ColumnsOfInterest ==> c in names
    requires var merged := Watcher.WrittenTable(Watcher.RunWatcher(outDir, ctf, files, existing).value);
             var hintPath := Configure(cwd, None, cfreq).hintPath;
             && RowsHave(merged, names)
             && ResolveDataFile(hintPath, Watcher.OutputPath(outDir)) in tables
             && tables[ResolveDataFile(hintPath, Watcher.OutputPath(outDir))] == ToColumns(merged, names)
    ensures var ws := Watcher.RunWatcher(outDir, ctf, files, existing).value;
            var app := Started(Unstarted(), Configure(cwd, None, cfreq));
            ProgressTick(app, n, Present(Watcher.WrittenHint(ws)), tables).outcome == Publish(CounterText(|Watcher.WrittenTable(ws)|))
  {
    Watcher.RunWatcherOrder(outDir, ctf, files, existing);
    OutputPathIsWord(outDir);
    var ws := Watcher.RunWatcher(outDir, ctf, files, existing).value;
    FirstTickPublishes(Watcher.OutputPath(outDir), ws[0].micrographs, names, cwd, cfreq, n, tables);
  }
}

=== FILE: figures.dfy ===
/** The dashboard's three figures: which table columns they plot, the
    subplot grid of the CTF figure, where each trace sits, and how a freshly
    loaded table is copied into the traces. */
module Figures {
  import opened Wrappers
  import opened Star

  const MotionColumns: seq<string> := ["rlnAccumMotionEarly", "rlnAccumMotionLate", "rlnAccumMotionTotal"]
  const MotionColumnsText: seq<string> :=
    [ "Whole-frame motion during first 4 e-/Å² (Å)",
      "Whole-frame motion during remainder of movie (Å)",
      "Total whole-frame motion (Å)" ]
  const CtfColumns: seq<string> := ["rlnDefocusU", "rlnCtfAstigmatism", "rlnCtfFigureOfMerit", "rlnCtfMaxResolution"]
  const CtfColumnsText: seq<string> := ["Defocus (Å)", "Astigmatism (Å)", "CTF fit figure of merit", "CTF fit resolution (Å)"]

  const ColumnsOfInterest: seq<string> := MotionColumns + CtfColumns
  const ColumnsText: seq<string> := MotionColumnsText + CtfColumnsText

  /** `dict(zip(keys, values))`: pairs up to the shorter sequence, a later
      key overriding an earlier one. */
  function ZipMap(keys: seq<string>, values: seq<string>): map<string, string> {
    var n := if |keys| <= |values| then |keys| else |values|;
    if n == 0 then map[]
    else ZipMap(keys[..n - 1], values[..n - 1])[keys[n - 1] := values[n - 1]]
  }

  function ColumnsTextMap(): map<string, string> {
    ZipMap(ColumnsOfInterest, ColumnsText)
  }

  predicate Distinct(xs: seq<string>) {
    forall i, j :: 0 <= i < j < |xs| ==> xs[i] != xs[j]
  }

  lemma ZipMapDistinct(keys: seq<string>, values: seq<string>)
    requires |keys| == |values| && Distinct(keys)
    ensures ZipMap(keys, values).Keys == set k | k in keys
    ensures forall i :: 0 <= i < |keys| ==> ZipMap(keys, values)[keys[i]] == values[i]
  {
    ZipMapKeys(keys, values);
    ZipMapValues(keys, values);
  }

  lemma {:induction false} ZipMapKeys(keys: seq<string>, values: seq<string>)
    requires |keys| == |values|
    ensures ZipMap(keys, values).Keys == set k | k in keys
    decreases |keys|
  {
    var n := |keys|;
    if n > 0 {
      var ks, vs, x := keys[..n - 1], values[..n - 1], keys[n - 1];
      ZipMapKeys(ks, vs);
      ZipMapSnoc(keys, values);
      assert keys == ks + [x];
      KeysOfSnoc(ks, x);
    }
  }

  lemma {:induction false} ZipMapValues(keys: seq<string>, values: seq<string>)
    requires |keys| == |values| && Distinct(keys)
    ensures forall i :: 0 <= i < |keys| ==> keys[i] in ZipMap(keys, values) && ZipMap(keys, values)[keys[i]] == values[i]
    decreases |keys|
  {
    var n := |keys|;
    if n > 0 {
      var ks, vs, x, y := keys[..n - 1], values[..n - 1], keys[n - 1], values[n - 1];
      DistinctPrefix(keys);
      ZipMapValues(ks, vs);
      var m0 := ZipMap(ks, vs);
      var m := ZipMap(keys, values);
      ZipMapSnoc(keys, values);
      assert m == m0[x := y];
      forall i | 0 <= i < n
        ensures keys[i] in m && m[keys[i]] == values[i]
      {
        if i < n - 1 {
          assert keys[i] != x;
          assert ks[i] == keys[i] && vs[i] == values[i];
        }
      }
    }
  }

  lemma ZipMapSnoc(keys: seq<string>, values: seq<string>)
    requires |keys| == |values| > 0
    ensures var n := |keys|;
            ZipMap(keys, values) == ZipMap(keys[..n - 1], values[..n - 1])[keys[n - 1] := values[n - 1]]
  {
  }

  lemma DistinctPrefix(xs: seq<string>)
    requires xs != [] && Distinct(xs)
    ensures Distinct(xs[..|xs| - 1])
  {
    var p := xs[..|xs| - 1];
    assert forall i :: 0 <= i < |p| ==> p[i] == xs[i];
  }

  lemma KeysOfSnoc(xs: seq<string>, x: string)
    ensures (set k | k in xs + [x]) == (set k | k in xs) + {x}
  {
  }

  /** Every column of interest has a display text: the two lists have the
      same length (seven), the labels are distinct, and label `i` maps to
      text `i`. */
  lemma ColumnsTextMapTotal()
    ensures |ColumnsOfInterest| == |ColumnsText| == 7
    ensures ColumnsTextMap().Keys == set c | c in ColumnsOfInterest
    ensures forall i :: 0 <= i < 7 ==> ColumnsTextMap()[ColumnsOfInterest[i]] == ColumnsText[i]
  {
    ColumnsDistinct();
    ZipMapDistinct(ColumnsOfInterest, ColumnsText);
  }

  lemma ColumnsDistinct()
    ensures Distinct(ColumnsOfInterest)
  {
    var cs := ColumnsOfInterest;
    assert cs == ["rlnAccumMotionEarly", "rlnAccumMotionLate", "rlnAccumMotionTotal",
                  "rlnDefocusU", "rlnCtfAstigmatism", "rlnCtfFigureOfMerit", "rlnCtfMaxResolution"];
    forall i, j | 0 <= i < j < 7
      ensures cs[i] != cs[j]
    {
      assert cs[i][3] != cs[j][3] || |cs[i]| != |cs[j]| || cs[i][4] != cs[j][4] || cs[i][10] != cs[j][10]
        || cs[i][11] != cs[j][11] || cs[i][14] != cs[j][14];
    }
  }

  // ---------------------------------------------------------------------------
  // The CTF figure's subplot grid

  /** A `specs` entry: `None`, or a subplot spanning some rows and columns. */
  datatype SpecCell = Blank | Subplot(rowspan: nat, colspan: nat)

  /** Rows of the CTF figure for `n` CTF columns: one scatter row per column,
      then two rows per group of up to three histograms. */
  function CtfPlotRowCount(n: nat): (rows: nat)
    ensures rows - n == 2 * ((n + 2) / 3)
  {
    CeilThird(n);
    n + (n / 3) * 2 + (if n % 3 > 0 then 1 else 0) * 2
  }

  /** Rounding `n / 3` up adds one exactly when three does not divide `n`. */
  lemma CeilThird(n: nat)
    ensures (n + 2) / 3 == n / 3 + (if n % 3 > 0 then 1 else 0)
  {
  }

  function Repeat<T>(x: T, k: nat): (r: seq<T>)
    ensures |r| == k && forall i :: 0 <= i < k ==> r[i] == x
  {
    if k == 0 then [] else [x] + Repeat(x, k - 1)
  }

  const ScatterRow: seq<SpecCell> := [Subplot(1, 3), Blank, Blank]
  const HistogramRow: seq<SpecCell> := [Subplot(2, 1), Subplot(2, 1), Subplot(2, 1)]
  const BlankRow: seq<SpecCell> := [Blank, Blank, Blank]

  /** `k` copies of the pair (three two-row subplots, blank row). */
  function HistogramPairs(k: nat): seq<seq<SpecCell>> {
    seq(2 * k, j requires 0 <= j < 2 * k => if j % 2 == 0 then HistogramRow else BlankRow)
  }

  /** The partial histogram row: `n % 3` two-row subplots, then blanks. */
  function PartialRow(n: nat): seq<SpecCell> {
    Repeat(Subplot(2, 1), n % 3) + Repeat(Blank, 3 - n % 3)
  }

  /** The `specs` grid exactly as the source builds it: the partial row and a
      trailing blank row are appended even when `n % 3 == 0`. */
  function Specs(n: nat): (s: seq<seq<SpecCell>>)
    ensures |s| == n + 2 * (n / 3) + 2
    ensures forall r :: 0 <= r < |s| ==> |s[r]| == 3
  {
    Repeat(ScatterRow, n) + HistogramPairs(n / 3) + [PartialRow(n)] + [BlankRow]
  }

  /** The grid the row count calls for: the partial row pair only when some
      histograms are left over after the full groups of three. */
  function SpecsCorrected(n: nat): (s: seq<seq<SpecCell>>)
    ensures |s| == CtfPlotRowCount(n)
    ensures forall r :: 0 <= r < |s| ==> |s[r]| == 3
  {
    Repeat(ScatterRow, n) + HistogramPairs(n / 3) + (if n % 3 > 0 then [PartialRow(n), BlankRow] else [])
  }

  /** The source's grid has as many rows as the figure exactly when
      `n mod 3 != 0`; otherwise it has two rows too many. */
  lemma SpecsMatchRowCountIff(n: nat)
    ensures |Specs(n)| == CtfPlotRowCount(n) <==> n % 3 != 0
    ensures n % 3 == 0 ==> |Specs(n)| == CtfPlotRowCount(n) + 2
  {
  }

  /** The corrected grid coincides with the source's grid whenever
      `n mod 3 != 0` (as for the four configured CTF columns). */
  lemma SpecsCorrectedAgrees(n: nat)
    requires n % 3 != 0
    ensures SpecsCorrected(n) == Specs(n)
  {
    var pre := Repeat(ScatterRow, n) + HistogramPairs(n / 3);
    assert Specs(n) == pre + [PartialRow(n)] + [BlankRow];
    assert SpecsCorrected(n) == pre + [PartialRow(n), BlankRow];
  }

  /** A CTF column count the source cannot lay out: with three columns the
      grid has seven rows for a five-row figure. */
  lemma SpecsMismatchAtThree()
    ensures CtfPlotRowCount(3) == 5
    ensures |Specs(3)| == 7
  {
  }

  lemma ConfiguredRowCount()
    ensures |CtfColumns| == 4
    ensures CtfPlotRowCount(|CtfColumns|) == 8
    ensures Specs(|CtfColumns|) == SpecsCorrected(|CtfColumns|)
  {
    SpecsCorrectedAgrees(4);
  }

  /** Zero-based cell of the histogram of CTF column `i`. */
  function HistogramCell(n: nat, i: nat): (cell: (nat, nat))
    ensures cell.0 >= n && cell.1 < 3
  {
    (n + (i / 3) * 2, i % 3)
  }

  /** The cell determines the histogram: it sits an even number of rows below
      the scatter rows, and counting three per row pair recovers its index. */
  lemma HistogramCellInverse(n: nat, i: nat)
    ensures (HistogramCell(n, i).0 - n) % 2 == 0
    ensures 3 * ((HistogramCell(n, i).0 - n) / 2) + HistogramCell(n, i).1 == i
  {
    var q := i / 3;
    assert HistogramCell(n, i).0 - n == q * 2;
    assert (q * 2) / 2 == q && (q * 2) % 2 == 0;
  }

  /** The histogram cells of the `n` CTF columns are pairwise distinct, lie
      in the three grid columns, leave room for their two-row span, and are
      exactly the grid's two-row subplots, with a blank below each. */
  lemma HistogramCellsFit(n: nat)
    ensures forall i, j :: 0 <= i < j < n ==> HistogramCell(n, i) != HistogramCell(n, j)
    ensures forall i :: 0 <= i < n ==>
              && HistogramCell(n, i).1 < 3
              && HistogramCell(n, i).0 + 2 <= CtfPlotRowCount(n)
              && SpecsCorrected(n)[HistogramCell(n, i).0][HistogramCell(n, i).1] == Subplot(2, 1)
              && SpecsCorrected(n)[HistogramCell(n, i).0 + 1][HistogramCell(n, i).1] == Blank
  {
    forall i | 0 <= i < n
      ensures HistogramCell(n, i).0 + 2 <= CtfPlotRowCount(n)
      ensures SpecsCorrected(n)[HistogramCell(n, i).0][HistogramCell(n, i).1] == Subplot(2, 1)
      ensures SpecsCorrected(n)[HistogramCell(n, i).0 + 1][HistogramCell(n, i).1] == Blank
    {
      HistogramCellFits(n, i);
    }
  }

  /** The cell of one histogram: a two-row subplot with a blank below it. */
  lemma HistogramCellFits(n: nat, i: nat)
    requires i < n
    ensures HistogramCell(n, i).1 < 3
    ensures HistogramCell(n, i).0 + 2 <= CtfPlotRowCount(n)
    ensures SpecsCorrected(n)[HistogramCell(n, i).0][HistogramCell(n, i).1] == Subplot(2, 1)
    ensures SpecsCorrected(n)[HistogramCell(n, i).0 + 1][HistogramCell(n, i).1] == Blank
  {
    var q, c := i / 3, i % 3;
    assert i == 3 * q + c && c < 3;
    assert n == 3 * (n / 3) + n % 3;
    if q < n / 3 {
      FullGroupRows(n, q);
    } else {
      assert q == n / 3 && c < n % 3;
      PartialGroupRows(n);
    }
  }

  /** Group `q` of three histograms: a row of two-row subplots, then blanks. */
  lemma FullGroupRows(n: nat, q: nat)
    requires q < n / 3
    ensures n + 2 * q + 2 <= CtfPlotRowCount(n)
    ensures SpecsCorrected(n)[n + 2 * q] == HistogramRow
    ensures SpecsCorrected(n)[n + 2 * q + 1] == BlankRow
  {
    var s := SpecsCorrected(n);
    var pairs := HistogramPairs(n / 3);
    assert s[n + 2 * q] == pairs[2 * q];
    assert s[n + 2 * q + 1] == pairs[2 * q + 1];
  }

  /** The leftover histograms: the partial row, then a blank row, last. */
  lemma PartialGroupRows(n: nat)
    requires n % 3 > 0
    ensures n + 2 * (n / 3) + 2 == CtfPlotRowCount(n)
    ensures SpecsCorrected(n)[n + 2 * (n / 3)] == PartialRow(n)
    ensures SpecsCorrected(n)[n + 2 * (n / 3) + 1] == BlankRow
  {
    var pre := Repeat(ScatterRow, n) + HistogramPairs(n / 3);
    assert |pre| == n + 2 * (n / 3);
    assert SpecsCorrected(n) == pre + [PartialRow(n), BlankRow];
  }

  /** The 1-based rows whose y-axis is titled "Counts": every second row from
      `n + 1` up to the row count. */
  function CountsRows(n: nat): (rows: seq<nat>)
    ensures |rows| == (CtfPlotRowCount(n) - n) / 2
    ensures forall k :: 0 <= k < |rows| ==> rows[k] == n + 2 * k + 1
  {
    var k := (CtfPlotRowCount(n) - n) / 2;
    seq(k, j requires 0 <= j < k => n + 2 * j + 1)
  }

  /** The "Counts" titles land exactly on the rows where histograms start. */
  lemma CountsRowsAreHistogramRows(n: nat)
    ensures (set k | k in CountsRows(n)) == (set i | 0 <= i < n :: HistogramCell(n, i).0 + 1)
  {
    var rows := CountsRows(n);
    var hist := set i | 0 <= i < n :: HistogramCell(n, i).0 + 1;
    forall r | r in rows
      ensures r in hist
    {
      var k :| 0 <= k < |rows| && rows[k] == r;
      assert HistogramCell(n, 3 * k).0 + 1 == r;
    }
    forall r | r in hist
      ensures r in rows
    {
      var i :| 0 <= i < n && HistogramCell(n, i).0 + 1 == r;
      assert rows[i / 3] == r;
    }
  }

  // ---------------------------------------------------------------------------
  // Traces

  datatype TraceKind = Scatter | Histogram

  /** A plotted trace: `meta` maps each data axis to the column it shows;
      `row` and `col` are the 1-based subplot it was added to. */
  datatype Trace = Trace(
    kind: TraceKind,
    name: string,
    meta: map<string, string>,
    axes: map<string, seq<Value>>,
    row: nat,
    col: nat)

  function ScatterTrace(column: string, name: string, row: nat, col: nat): Trace {
    Trace(Scatter, name, map["y" := column], map["y" := []], row, col)
  }

  function HistogramTrace(column: string, name: string, row: nat, col: nat): Trace {
    Trace(Histogram, name, map["x" := column], map["x" := []], row, col)
  }

  /** Overview: one scatter per column of interest, stacked in one column. */
  function OverviewTraces(): (ts: seq<Trace>)
    ensures |ts| == |ColumnsOfInterest|
    ensures forall k :: 0 <= k < |ts| ==>
              ts[k].kind == Scatter && ts[k].col == 1 && 1 <= ts[k].row <= |ColumnsOfInterest|
    ensures forall j, k :: 0 <= j < k < |ts| ==> ts[j].row != ts[k].row
  {
    seq(|ColumnsOfInterest|, i requires 0 <= i < |ColumnsOfInterest| =>
      ScatterTrace(ColumnsOfInterest[i], ColumnsOfInterest[i], i + 1, 1))
  }

  /** Motion: for each motion column a scatter on the wide first row and a
      histogram in its own cell of the second row. */
  function MotionTraces(): (ts: seq<Trace>)
    ensures |ts| == 2 * |MotionColumns|
    ensures forall k :: 0 <= k < |ts| && ts[k].kind == Scatter ==> ts[k].row == 1 && ts[k].col == 1
    ensures forall k :: 0 <= k < |ts| && ts[k].kind == Histogram ==> ts[k].row == 2 && 1 <= ts[k].col <= 3
    ensures forall j, k :: 0 <= j < k < |ts| && ts[j].kind == Histogram && ts[k].kind == Histogram ==>
              ts[j].col != ts[k].col
  {
    seq(2 * |MotionColumns|, k requires 0 <= k < 2 * |MotionColumns| =>
      var c := MotionColumns[k / 2];
      var text := MotionColumnsText[k / 2];
      if k % 2 == 0 then ScatterTrace(c, text, 1, 1) else HistogramTrace(c, text, 2, k / 2 + 1))
  }

  /** CTF: for each CTF column a scatter on its own row and a histogram on
      its cell below the scatters. */
  function CtfTraces(): (ts: seq<Trace>)
    ensures |ts| == 2 * |CtfColumns|
    ensures forall k :: 0 <= k < |ts| && ts[k].kind == Scatter ==> ts[k].col == 1 && 1 <= ts[k].row <= |CtfColumns|
    ensures forall j, k :: 0 <= j < k < |ts| && ts[j].kind == Scatter && ts[k].kind == Scatter ==>
              ts[j].row != ts[k].row
  {
    var n := |CtfColumns|;
    seq(2 * n, k requires 0 <= k < 2 * n =>
      var i := k / 2;
      var text := CtfColumnsText[i];
      if k % 2 == 0 then ScatterTrace(CtfColumns[i], text, i + 1, 1)
      else HistogramTrace(CtfColumns[i], text, HistogramCell(n, i).0 + 1, HistogramCell(n, i).1 + 1))
  }

  function AllTraces(): seq<Trace> {
    OverviewTraces() + MotionTraces() + CtfTraces()
  }

  /** A trace shows exactly one column of interest: a scatter on its `y`
      axis, a histogram on its `x` axis. */
  predicate ShowsOneColumn(t: Trace) {
    && (t.kind == Scatter ==> t.meta.Keys == {"y"})
    && (t.kind == Histogram ==> t.meta.Keys == {"x"})
    && forall a :: a in t.meta ==> t.meta[a] in ColumnsOfInterest
  }

  lemma ScatterShowsOneColumn(c: string, name: string, row: nat, col: nat)
    requires c in ColumnsOfInterest
    ensures ShowsOneColumn(ScatterTrace(c, name, row, col))
  {
  }

  lemma OverviewShowsOneColumn()
    ensures |OverviewTraces()| == 7
    ensures forall k :: 0 <= k < 7 ==> ShowsOneColumn(OverviewTraces()[k])
    ensures forall k :: 0 <= k < 7 ==> OverviewTraces()[k].meta == map["y" := ColumnsOfInterest[k]]
  {
    var ts := OverviewTraces();
    assert |ColumnsOfInterest| == 7;
    forall k | 0 <= k < 7
      ensures ShowsOneColumn(ts[k]) && ts[k].meta == map["y" := ColumnsOfInterest[k]]
    {
      var c := ColumnsOfInterest[k];
      assert ts[k] == ScatterTrace(c, c, k + 1, 1);
      assert c in ColumnsOfInterest;
      ScatterShowsOneColumn(c, c, k + 1, 1);
    }
  }

  lemma MotionShowsOneColumn()
    ensures |MotionTraces()| == 6
    ensures forall k :: 0 <= k < 6 ==> ShowsOneColumn(MotionTraces()[k])
  {
    forall k | 0 <= k < 6
      ensures ShowsOneColumn(MotionTraces()[k])
    {
      assert MotionColumns[k / 2] == ColumnsOfInterest[k / 2];
      assert ColumnsOfInterest[k / 2] in ColumnsOfInterest;
    }
  }

  lemma CtfShowsOneColumn()
    ensures |CtfTraces()| == 8
    ensures forall k :: 0 <= k < 8 ==> ShowsOneColumn(CtfTraces()[k])
  {
    forall k | 0 <= k < 8
      ensures ShowsOneColumn(CtfTraces()[k])
    {
      assert CtfColumns[k / 2] == ColumnsOfInterest[3 + k / 2];
      assert ColumnsOfInterest[3 + k / 2] in ColumnsOfInterest;
    }
  }

  /** Every configured trace shows one column of interest, and every column
      of interest is shown by some trace (its overview scatter). */
  lemma TraceMetaNamesColumnsOfInterest()
    ensures forall k :: 0 <= k < |AllTraces()| ==> ShowsOneColumn(AllTraces()[k])
    ensures forall i :: 0 <= i < |ColumnsOfInterest| ==>
              AllTraces()[i].meta == map["y" := ColumnsOfInterest[i]]
  {
    OverviewShowsOneColumn();
    MotionShowsOneColumn();
    CtfShowsOneColumn();
    var all := AllTraces();
    forall k | 0 <= k < |all|
      ensures ShowsOneColumn(all[k])
    {
      if k < 7 {
        assert all[k] == OverviewTraces()[k];
      } else if k < 13 {
        assert all[k] == MotionTraces()[k - 7];
      } else {
        assert all[k] == CtfTraces()[k - 13];
      }
    }
    forall i | 0 <= i < 7
      ensures all[i].meta == map["y" := ColumnsOfInterest[i]]
    {
      assert all[i] == OverviewTraces()[i];
    }
  }

  lemma CtfHistogramAt(k: nat)
    requires k < |CtfTraces()| && CtfTraces()[k].kind == Histogram
    ensures 1 <= CtfTraces()[k].row <= CtfPlotRowCount(|CtfColumns|) - 1
    ensures 1 <= CtfTraces()[k].col <= 3
    ensures Specs(|CtfColumns|)[CtfTraces()[k].row - 1][CtfTraces()[k].col - 1] == Subplot(2, 1)
  {
    var n := |CtfColumns|;
    ConfiguredRowCount();
    var i := k / 2;
    assert k % 2 == 1;
    var t := CtfTraces()[k];
    assert t.row == HistogramCell(n, i).0 + 1 && t.col == HistogramCell(n, i).1 + 1;
    HistogramCellFits(n, i);
  }

  /** The CTF histograms sit on the two-row subplots of the grid. */
  lemma CtfHistogramsOnGrid()
    ensures forall k :: 0 <= k < |CtfTraces()| && CtfTraces()[k].kind == Histogram ==>
              && 1 <= CtfTraces()[k].row <= CtfPlotRowCount(|CtfColumns|) - 1
              && 1 <= CtfTraces()[k].col <= 3
              && Specs(|CtfColumns|)[CtfTraces()[k].row - 1][CtfTraces()[k].col - 1] == Subplot(2, 1)
  {
    forall k | 0 <= k < |CtfTraces()| && CtfTraces()[k].kind == Histogram
      ensures 1 <= CtfTraces()[k].row <= CtfPlotRowCount(|CtfColumns|) - 1
      ensures 1 <= CtfTraces()[k].col <= 3
      ensures Specs(|CtfColumns|)[CtfTraces()[k].row - 1][CtfTraces()[k].col - 1] == Subplot(2, 1)
    {
      CtfHistogramAt(k);
    }
  }

  // ---------------------------------------------------------------------------
  // update_figures

  /** Every column a trace's `meta` names is in the table. */
  predicate CanRefresh(t: Trace, data: Columns) {
    forall a :: a in t.meta ==> HasColumn(data, t.meta[a])
  }

  /** The trace with each axis of its `meta` set to the named column: it
      keeps its kind, name, meta and cell; each axis its meta names holds
      that column, every other axis is untouched, and no axis is added. */
  function Refresh(t: Trace, data: Columns): (t': Trace)
    requires CanRefresh(t, data)
    ensures t'.kind == t.kind && t'.name == t.name && t'.meta == t.meta
    ensures t'.row == t.row && t'.col == t.col
    ensures forall a :: a in t.meta ==> a in t'.axes && Lookup(data, t.meta[a]) == Some(t'.axes[a])
    ensures forall a :: a in t.axes && a !in t.meta ==> a in t'.axes && t'.axes[a] == t.axes[a]
    ensures forall a :: a in t'.axes ==> a in t.axes || a in t.meta
  {
    t.(axes := t.axes + map a | a in t.meta :: Lookup(data, t.meta[a]).value)
  }

  /** Index of the first trace naming a column the table lacks, or the
      number of traces when there is none. */
  function FirstStale(traces: seq<Trace>, data: Columns): (f: nat)
    ensures f <= |traces|
    ensures forall k :: 0 <= k < f ==> CanRefresh(traces[k], data)
    ensures f < |traces| ==> !CanRefresh(traces[f], data)
  {
    if traces == [] || !CanRefresh(traces[0], data) then 0
    else 1 + FirstStale(traces[1..], data)
  }

  /** The traces before `f` refreshed, the others as they were. */
  function RefreshedBefore(traces: seq<Trace>, data: Columns, f: nat): seq<Trace>
    requires f <= |traces|
    requires forall k :: 0 <= k < f ==> CanRefresh(traces[k], data)
  {
    seq(|traces|, k requires 0 <= k < |traces| => if k < f then Refresh(traces[k], data) else traces[k])
  }

  datatype FigureUpdate = Done(traces: seq<Trace>) | Aborted(traces: seq<Trace>)

  /** `update_figures`: refresh the traces one after another; the first trace
      naming a column the table lacks raises, leaving the traces before it
      refreshed and it and the rest untouched. */
  function UpdateFigures(traces: seq<Trace>, data: Columns): (r: FigureUpdate)
    ensures r.Done? <==> FirstStale(traces, data) == |traces|
    ensures r.traces == RefreshedBefore(traces, data, FirstStale(traces, data))
  {
    if traces == [] then Done([])
    else if !CanRefresh(traces[0], data) then Aborted(traces)
    else
      var t := Refresh(traces[0], data);
      var rest := UpdateFigures(traces[1..], data);
      RefreshedBeforeCons(traces, data);
      match rest
      case Done(ts) => Done([t] + ts)
      case Aborted(ts) => Aborted([t] + ts)
  }

  lemma RefreshedBeforeCons(traces: seq<Trace>, data: Columns)
    requires traces != [] && CanRefresh(traces[0], data)
    ensures FirstStale(traces, data) == 1 + FirstStale(traces[1..], data)
    ensures RefreshedBefore(traces, data, FirstStale(traces, data)) ==
              [Refresh(traces[0], data)] + RefreshedBefore(traces[1..], data, FirstStale(traces[1..], data))
  {
    var lhs := RefreshedBefore(traces, data, FirstStale(traces, data));
    var rhs := [Refresh(traces[0], data)] + RefreshedBefore(traces[1..], data, FirstStale(traces[1..], data));
    forall k | 0 <= k < |traces|
      ensures lhs[k] == rhs[k]
    {
      RefreshedBeforeConsAt(traces, data, k);
    }
    assert |lhs| == |rhs|;
  }

  lemma RefreshedBeforeConsAt(traces: seq<Trace>, data: Columns, k: nat)
    requires traces != [] && CanRefresh(traces[0], data) && k < |traces|
    ensures RefreshedBefore(traces, data, FirstStale(traces, data))[k] ==
              ([Refresh(traces[0], data)] + RefreshedBefore(traces[1..], data, FirstStale(traces[1..], data)))[k]
  {
    var rest := traces[1..];
    assert FirstStale(traces, data) == FirstStale(rest, data) + 1;
    if k > 0 {
      assert traces[k] == rest[k - 1];
    }
  }

  /** Refreshing a refreshed trace from the same table changes nothing. */
  lemma RefreshIdempotent(t: Trace, data: Columns)
    requires CanRefresh(t, data)
    ensures CanRefresh(Refresh(t, data), data)
    ensures Refresh(Refresh(t, data), data) == Refresh(t, data)
  {
    var t1 := Refresh(t, data);
    var t2 := Refresh(t1, data);
    assert t2.axes == t1.axes;
  }

  /** Running `update_figures` again on the figures it completed, with the
      same table, completes and leaves them as they are. */
  lemma {:induction false} UpdateFiguresIdempotent(traces: seq<Trace>, data: Columns)
    requires UpdateFigures(traces, data).Done?
    ensures UpdateFigures(UpdateFigures(traces, data).traces, data) == UpdateFigures(traces, data)
  {
    if traces != [] {
      var t := Refresh(traces[0], data);
      var ts := UpdateFigures(traces[1..], data).traces;
      UpdateFiguresIdempotent(traces[1..], data);
      RefreshIdempotent(traces[0], data);
      var out := [t] + ts;
      assert UpdateFigures(traces, data) == Done(out);
      assert out[0] == t && out[1..] == ts;
    }
  }

  /** The configured figures refresh completely exactly when the table holds
      all seven columns of interest. */
  lemma UpdateAllFiguresIff(data: Columns)
    ensures UpdateFigures(AllTraces(), data).Done? <==>
              forall i :: 0 <= i < |ColumnsOfInterest| ==> HasColumn(data, ColumnsOfInterest[i])
  {
    TraceMetaNamesColumnsOfInterest();
    var all := AllTraces();
    if forall i :: 0 <= i < |ColumnsOfInterest| ==> HasColumn(data, ColumnsOfInterest[i]) {
      forall k | 0 <= k < |all|
        ensures CanRefresh(all[k], data)
      {
        assert ShowsOneColumn(all[k]);
        forall a | a in all[k].meta
          ensures HasColumn(data, all[k].meta[a])
        {
          var c := all[k].meta[a];
          var i :| 0 <= i < |ColumnsOfInterest| && ColumnsOfInterest[i] == c;
        }
      }
    } else {
      var i :| 0 <= i < |ColumnsOfInterest| && !HasColumn(data, ColumnsOfInterest[i]);
      assert all[i].meta["y"] == ColumnsOfInterest[i];
      assert !CanRefresh(all[i], data);
    }
  }
}

=== FILE: paths.dfy ===
/** POSIX path handling as Python's `posixpath` does it (`split`, `dirname`,
    `join`, `normpath`, `abspath`), and the watcher's `splitall`. Paths are
    plain strings; '/' is the only separator. */
module Paths {

  predicate IsAbs(p: string) {
    p != [] && p[0] == '/'
  }

  predicate NoSlash(s: string) {
    forall j :: 0 <= j < |s| ==> s[j] != '/'
  }

  predicate AllSlashes(s: string) {
    forall j :: 0 <= j < |s| ==> s[j] == '/'
  }

  /** No two consecutive separators. */
  predicate NoDoubleSlash(p: string) {
    forall j :: 0 <= j < |p| - 1 ==> p[j] == '/' ==> p[j + 1] != '/'
  }

  /** `p.rfind('/') + 1`: the length of everything up to the last separator. */
  function AfterLastSlash(p: string): (i: nat)
    ensures i <= |p|
    ensures i == 0 || p[i - 1] == '/'
    ensures forall j :: i <= j < |p| ==> p[j] != '/'
  {
    if p == [] then 0
    else if p[|p| - 1] == '/' then |p|
    else AfterLastSlash(p[..|p| - 1])
  }

  /** `s.rstrip('/')`. */
  function RStripSlashes(s: string): (r: string)
    ensures r <= s
    ensures r == [] || r[|r| - 1] != '/'
    ensures forall j :: |r| <= j < |s| ==> s[j] == '/'
  {
    if s == [] || s[|s| - 1] != '/' then s else RStripSlashes(s[..|s| - 1])
  }

  /** `posixpath.split`: the tail is everything after the last separator; the
      head is everything before it, with trailing separators removed unless
      the head consists of separators only. */
  function Split(p: string): (r: (string, string))
    ensures NoSlash(r.1)
    ensures r.1 == p[AfterLastSlash(p)..]
  {
    var i := AfterLastSlash(p);
    var head := p[..i];
    (if head != [] && !AllSlashes(head) then RStripSlashes(head) else head, p[i..])
  }

  /** `posixpath.dirname`. */
  function Dirname(p: string): string {
    Split(p).0
  }

  /** `posixpath.join(a, b)`: an absolute `b` replaces `a`; otherwise a
      separator is inserted unless `a` is empty or already ends with one. */
  function Join(a: string, b: string): (r: string)
    ensures IsAbs(b) ==> r == b
    ensures !IsAbs(b) ==> a <= r && |a| + |b| <= |r| <= |a| + |b| + 1
  {
    if IsAbs(b) then b
    else if a == [] || a[|a| - 1] == '/' then a + b
    else a + "/" + b
  }

  /** `posixpath.join(*parts)`, folding `Join` from the left. */
  function JoinAll(parts: seq<string>): (r: string)
    requires |parts| >= 1
    ensures |parts[|parts| - 1]| <= |r|
    ensures IsAbs(parts[|parts| - 1]) ==> r == parts[|parts| - 1]
  {
    if |parts| == 1 then parts[0] else Join(JoinAll(parts[..|parts| - 1]), parts[|parts| - 1])
  }

  /** `'/'.join(parts)`: plain string concatenation with separators. */
  function JoinSlash(parts: seq<string>): string {
    if parts == [] then []
    else if |parts| == 1 then parts[0]
    else JoinSlash(parts[..|parts| - 1]) + "/" + parts[|parts| - 1]
  }

  // ---------------------------------------------------------------------------
  // The split step on relative and absolute paths

  /** On a relative path, one `split` either returns the whole path as the
      tail or a strictly shorter, non-empty relative head. */
  lemma SplitShrinksRelative(p: string)
    requires !IsAbs(p)
    ensures Split(p).1 == p || (|Split(p).0| < |p| && Split(p).0 != [] && !IsAbs(Split(p).0))
  {
    var i := AfterLastSlash(p);
    if i > 0 {
      var head := p[..i];
      assert head[0] == p[0] != '/';
      assert !AllSlashes(head);
      assert head[|head| - 1] == '/';
      assert |RStripSlashes(head)| < |head|;
    }
  }

  /** On an absolute path, `split` never returns the whole path as the tail,
      and the head is again absolute: the exit test of `splitall` can never
      succeed, so the source loops forever (from "/" it steps to "/" again). */
  lemma SplitOfAbsoluteNeverExits(p: string)
    requires IsAbs(p)
    ensures Split(p).1 != p
    ensures IsAbs(Split(p).0)
  {
    var i := AfterLastSlash(p);
    assert i > 0;
    var head := p[..i];
    assert head[0] == '/';
    if !AllSlashes(head) {
      var h := RStripSlashes(head);
      assert h[0] == head[0];
    }
  }

  lemma SplitOfRoot()
    ensures Split("/") == ("/", "")
  {
    var p := "/";
    assert p[0] == '/';
    assert AfterLastSlash(p) == 1;
    assert p[..1] == p;
    assert AllSlashes(p);
  }

  /** The watcher's `splitall`: repeatedly `split`, prepending each tail,
      until `split` returns the whole remaining path as its tail. The source
      terminates only on relative paths (see `SplitOfAbsoluteNeverExits`). */
  function SplitAll(p: string): (parts: seq<string>)
    requires !IsAbs(p)
    ensures |parts| >= 1
    ensures AllNoSlash(parts)
    ensures parts[|parts| - 1] == Split(p).1
    decreases |p|
  {
    var r := Split(p);
    SplitShrinksRelative(p);
    if r.1 == p then [r.1]
    else
      var init := SplitAll(r.0);
      AllNoSlashSnoc(init, r.1);
      init + [r.1]
  }

  /** Every component is separator-free. */
  predicate AllNoSlash(parts: seq<string>) {
    forall k :: 0 <= k < |parts| ==> NoSlash(parts[k])
  }

  lemma AllNoSlashSnoc(init: seq<string>, last: string)
    requires AllNoSlash(init)
    requires NoSlash(last)
    ensures AllNoSlash(init + [last])
  {
    assert forall k :: 0 <= k < |init| ==> (init + [last])[k] == init[k];
  }

  // ---------------------------------------------------------------------------
  // splitall and '/'.join are inverse to each other

  lemma JoinSlashSnoc(xs: seq<string>, t: string)
    requires xs != []
    ensures JoinSlash(xs + [t]) == JoinSlash(xs) + "/" + t
  {
    assert (xs + [t])[..|xs|] == xs;
  }

  /** One `split` of a relative path with single separators cuts it at its
      last separator. */
  lemma SplitAtLastSlash(p: string)
    requires !IsAbs(p) && NoDoubleSlash(p)
    requires Split(p).1 != p
    ensures p == Split(p).0 + "/" + Split(p).1
    ensures !IsAbs(Split(p).0) && NoDoubleSlash(Split(p).0)
  {
    var i := AfterLastSlash(p);
    assert i >= 2 by {
      assert i > 0;
      assert p[0] != '/';
    }
    var h0 := p[..i];
    assert h0[0] == p[0];
    assert !AllSlashes(h0);
    var h := RStripSlashes(h0);
    assert p[i - 2] != '/';
    assert h0[i - 2] != '/';
    assert h0[i - 1] == '/';
    assert |h| == i - 1;
    assert h == p[..i - 1];
    assert Split(p).0 == h;
    assert p == p[..i - 1] + "/" + p[i..];
  }

  /** Joining the components of a relative path with single separators gives
      back that path. */
  lemma {:induction false} JoinSplitAll(p: string)
    requires !IsAbs(p) && NoDoubleSlash(p)
    ensures JoinSlash(SplitAll(p)) == p
    decreases |p|
  {
    var (head, tail) := Split(p);
    SplitShrinksRelative(p);
    if tail != p {
      SplitAtLastSlash(p);
      JoinSplitAll(head);
      JoinSlashSnoc(SplitAll(head), tail);
    }
  }

  /** Component lists that `'/'.join` turns into a relative path with single
      separators: no component holds a separator, and only the last may be empty. */
  predicate WellFormedParts(parts: seq<string>) {
    && |parts| >= 1
    && (forall k :: 0 <= k < |parts| ==> NoSlash(parts[k]))
    && (forall k :: 0 <= k < |parts| - 1 ==> parts[k] != [])
  }

  lemma {:induction false} JoinSlashShape(parts: seq<string>)
    requires WellFormedParts(parts)
    ensures |parts| > 1 ==> JoinSlash(parts) != [] && JoinSlash(parts)[0] != '/'
    ensures |parts| > 1 ==> JoinSlash(parts)[|JoinSlash(parts)| - 1] != '/' || parts[|parts| - 1] == []
    ensures |parts| == 1 ==> JoinSlash(parts) == parts[0]
    ensures !IsAbs(JoinSlash(parts))
  {
    if |parts| > 1 {
      var init := parts[..|parts| - 1];
      JoinSlashShape(init);
      var j := JoinSlash(init);
      assert j != [] by {
        if |init| == 1 {
          assert init[0] == parts[0];
        }
      }
      assert JoinSlash(parts) == j + "/" + parts[|parts| - 1];
      assert JoinSlash(parts)[0] == j[0];
      if |init| == 1 {
        assert parts[0][0] != '/';
      }
    } else {
      if parts[0] != [] {
        assert parts[0][0] != '/';
      }
    }
  }

  /** Joining with a separator and splitting once undoes the join. */
  lemma SplitOfSlashJoin(j: string, t: string)
    requires j != [] && j[|j| - 1] != '/'
    requires NoSlash(t)
    ensures Split(j + "/" + t) == (j, t)
  {
    var p := j + "/" + t;
    var i := AfterLastSlash(p);
    assert p[|j|] == '/';
    assert i == |j| + 1;
    var h0 := p[..i];
    assert h0 == j + "/";
    assert h0[|j| - 1] != '/';
    assert !AllSlashes(h0);
    var h := RStripSlashes(h0);
    assert |h| == |j|;
    assert p[i..] == t;
    assert h == h0[..|j|] == j;
    assert Split(p).0 == h;
  }

  /** The last separator of a joined path sits right after the joined
      initial components, which do not end in a separator. */
  lemma JoinSlashLastCut(parts: seq<string>)
    requires WellFormedParts(parts) && |parts| >= 2
    ensures WellFormedParts(parts[..|parts| - 1])
    ensures JoinSlash(parts[..|parts| - 1]) != []
    ensures JoinSlash(parts[..|parts| - 1])[|JoinSlash(parts[..|parts| - 1])| - 1] != '/'
    ensures JoinSlash(parts) == JoinSlash(parts[..|parts| - 1]) + "/" + parts[|parts| - 1]
  {
    var init := parts[..|parts| - 1];
    assert WellFormedParts(init);
    JoinSlashShape(init);
    if |init| == 1 {
      assert JoinSlash(init) == parts[0];
      JoinSlashEndsWithLast(init);
    } else {
      JoinSlashEndsWithLast(init);
      assert init[|init| - 1] != [];
    }
  }

  /** A separator-free path is its own single component. */
  lemma SplitOfComponent(p: string)
    requires NoSlash(p)
    ensures Split(p).1 == p
    ensures SplitAll(p) == [p]
  {
  }

  /** Splitting a path assembled from well-formed components recovers them. */
  lemma {:induction false} SplitAllJoin(parts: seq<string>)
    requires WellFormedParts(parts)
    ensures !IsAbs(JoinSlash(parts))
    ensures SplitAll(JoinSlash(parts)) == parts
    decreases |parts|
  {
    JoinSlashShape(parts);
    if |parts| == 1 {
      SplitOfComponent(parts[0]);
    } else {
      JoinSlashLastCut(parts);
      var init := parts[..|parts| - 1];
      SplitAllJoin(init);
      var j := JoinSlash(init);
      var t := parts[|parts| - 1];
      SplitAllStep(j, t);
      InitLast(parts);
      calc {
        SplitAll(JoinSlash(parts));
        SplitAll(j + "/" + t);
        SplitAll(j) + [t];
        init + [t];
        parts;
      }
    }
  }

  lemma InitLast<T>(xs: seq<T>)
    requires xs != []
    ensures xs == xs[..|xs| - 1] + [xs[|xs| - 1]]
  {
  }

  /** One step of `splitall` on `j + "/" + t`. */
  lemma SplitAllStep(j: string, t: string)
    requires j != [] && j[|j| - 1] != '/' && !IsAbs(j)
    requires NoSlash(t)
    ensures !IsAbs(j + "/" + t)
    ensures SplitAll(j + "/" + t) == SplitAll(j) + [t]
  {
    var p := j + "/" + t;
    assert p[0] == j[0];
    SplitOfSlashJoin(j, t);
    assert Split(p).1 != p;
  }

  // ---------------------------------------------------------------------------
  // join followed by split

  /** `join(a, b)` ends in `b`. */
  lemma JoinEndsWith(a: string, b: string)
    ensures |b| <= |Join(a, b)| && Join(a, b)[|Join(a, b)| - |b|..] == b
  {
  }

  /** `join(*parts)` ends in its last part. */
  lemma JoinAllEndsWith(parts: seq<string>)
    requires |parts| >= 1
    ensures var r := JoinAll(parts);
            r[|r| - |parts[|parts| - 1]|..] == parts[|parts| - 1]
  {
    if |parts| > 1 {
      JoinEndsWith(JoinAll(parts[..|parts| - 1]), parts[|parts| - 1]);
    }
  }

  /** `join(a, b)` for a separator-free `b` ends in the component `b`. */
  lemma TailOfJoin(a: string, b: string)
    requires NoSlash(b)
    ensures Split(Join(a, b)).1 == b
  {
    var p := Join(a, b);
    var i := AfterLastSlash(p);
    var start := |p| - |b|;
    assert p[start..] == b;
    assert start == 0 || p[start - 1] == '/';
  }

  /** A directory as `normpath` leaves it: absolute, and either only
      separators or not ending in one. */
  predicate IsNormalDir(d: string) {
    IsAbs(d) && (AllSlashes(d) || d[|d| - 1] != '/')
  }

  /** `dirname(join(d, name)) == d` for a normalised absolute directory. */
  lemma DirnameOfJoin(d: string, name: string)
    requires IsNormalDir(d)
    requires name != [] && NoSlash(name)
    ensures Dirname(Join(d, name)) == d
    ensures Split(Join(d, name)).1 == name
  {
    TailOfJoin(d, name);
    if AllSlashes(d) {
      var p := d + name;
      assert Join(d, name) == p;
      var i := AfterLastSlash(p);
      assert i == |d|;
      assert p[..i] == d;
    } else {
      SplitOfSlashJoin(d, name);
    }
  }

  // ---------------------------------------------------------------------------
  // normpath and abspath

  /** Index of the first separator, or `|s|`. */
  function FirstSlash(s: string): (k: nat)
    ensures k <= |s|
    ensures forall j :: 0 <= j < k ==> s[j] != '/'
    ensures k == |s| || s[k] == '/'
  {
    if s == [] || s[0] == '/' then 0 else 1 + FirstSlash(s[1..])
  }

  /** `s.split('/')`. */
  function SplitOnSlash(s: string): (parts: seq<string>)
    ensures |parts| >= 1
    ensures forall k :: 0 <= k < |parts| ==> NoSlash(parts[k])
    decreases |s|
  {
    var k := FirstSlash(s);
    if k == |s| then [s] else [s[..k]] + SplitOnSlash(s[k + 1..])
  }

  /** A component `normpath` keeps under a root: non-empty, separator-free,
      neither "." nor "..". */
  predicate IsPlainComponent(c: string) {
    c != [] && c != "." && c != ".." && NoSlash(c)
  }

  /** The component loop of `normpath`: drop empty and "." components, let
      ".." remove the previous component (kept when nothing can be removed
      and the path is relative). */
  function NormComps(comps: seq<string>, rooted: bool, acc: seq<string>): (r: seq<string>)
    requires forall k :: 0 <= k < |comps| ==> NoSlash(comps[k])
    requires forall k :: 0 <= k < |acc| ==> acc[k] != [] && acc[k] != "." && NoSlash(acc[k])
    requires rooted ==> forall k :: 0 <= k < |acc| ==> IsPlainComponent(acc[k])
    ensures forall k :: 0 <= k < |r| ==> r[k] != [] && r[k] != "." && NoSlash(r[k])
    ensures rooted ==> forall k :: 0 <= k < |r| ==> IsPlainComponent(r[k])
    decreases |comps|
  {
    if comps == [] then acc
    else
      var c := comps[0];
      var acc' :=
        if c == "" || c == "." then acc
        else if c != ".." || (!rooted && acc == []) || (acc != [] && acc[|acc| - 1] == "..") then acc + [c]
        else if acc != [] then acc[..|acc| - 1]
        else acc;
      NormComps(comps[1..], rooted, acc')
  }

  /** The separators `normpath` keeps in front: two exactly when the path
      starts with exactly two, one for any other absolute path, else none. */
  function LeadingSlashes(p: string): (s: string)
    ensures AllSlashes(s)
    ensures IsAbs(p) <==> s != []
  {
    if StartsWithDouble(p) && !(|p| >= 3 && p[2] == '/') then "//"
    else if IsAbs(p) then "/"
    else ""
  }

  predicate StartsWithDouble(p: string) {
    |p| >= 2 && p[0] == '/' && p[1] == '/'
  }

  /** `posixpath.normpath`. */
  function NormPath(p: string): (r: string)
    ensures r != []
    ensures IsAbs(p) ==> IsNormalDir(r)
  {
    if p == [] then "."
    else
      var lead := LeadingSlashes(p);
      var comps := NormComps(SplitOnSlash(p), lead != [], []);
      var body := JoinSlash(comps);
      NormalJoinShape(lead, comps);
      if lead + body == [] then "." else lead + body
  }

  /** `lead + '/'.join(comps)` for plain components is a normalised directory. */
  lemma NormalJoinShape(lead: string, comps: seq<string>)
    requires lead != [] ==> forall k :: 0 <= k < |comps| ==> IsPlainComponent(comps[k])
    requires AllSlashes(lead)
    ensures lead != [] ==> IsNormalDir(lead + JoinSlash(comps))
  {
    if lead != [] {
      var r := lead + JoinSlash(comps);
      if comps == [] {
        assert r == lead;
      } else {
        assert WellFormedParts(comps);
        JoinSlashEndsWithLast(comps);
        var last := comps[|comps| - 1];
        assert last[|last| - 1] != '/';
      }
    }
  }

  lemma JoinSlashEndsWithLast(parts: seq<string>)
    requires parts != []
    ensures parts[|parts| - 1] <= JoinSlash(parts)[|JoinSlash(parts)| - |parts[|parts| - 1]|..]
    ensures |parts[|parts| - 1]| <= |JoinSlash(parts)|
    ensures parts[|parts| - 1] != [] ==>
              JoinSlash(parts)[|JoinSlash(parts)| - 1] == parts[|parts| - 1][|parts[|parts| - 1]| - 1]
  {
  }

  // ---------------------------------------------------------------------------
  // normpath leaves a clean absolute path alone

  predicate AllPlain(comps: seq<string>) {
    forall k :: 0 <= k < |comps| ==> IsPlainComponent(comps[k])
  }

  /** The absolute path with the given components: a single leading
      separator and single separators between components. */
  function Rooted(comps: seq<string>): string {
    "/" + JoinSlash(comps)
  }

  lemma {:induction false} JoinSlashCons(c: string, rest: seq<string>)
    requires rest != []
    ensures JoinSlash([c] + rest) == c + "/" + JoinSlash(rest)
    decreases |rest|
  {
    var xs := [c] + rest;
    if |rest| == 1 {
      assert xs[..1] == [c];
    } else {
      var init := rest[..|rest| - 1];
      assert xs[..|xs| - 1] == [c] + init;
      JoinSlashCons(c, init);
    }
  }

  /** `'/'.join` followed by `split('/')` gives back separator-free components. */
  lemma {:induction false} SplitOnSlashJoin(comps: seq<string>)
    requires |comps| >= 1
    requires forall k :: 0 <= k < |comps| ==> NoSlash(comps[k])
    ensures SplitOnSlash(JoinSlash(comps)) == comps
    decreases |comps|
  {
    var c := comps[0];
    assert NoSlash(c);
    if |comps| == 1 {
      assert FirstSlash(c) == |c|;
    } else {
      var rest := comps[1..];
      assert [c] + rest == comps;
      JoinSlashCons(c, rest);
      var p := c + "/" + JoinSlash(rest);
      assert p[|c|] == '/';
      assert forall j :: 0 <= j < |c| ==> p[j] == c[j];
      assert FirstSlash(p) == |c|;
      assert p[|c| + 1..] == JoinSlash(rest);
      assert p[..|c|] == c;
      SplitOnSlashJoin(rest);
    }
  }

  /** Plain components pass through the `normpath` loop unchanged. */
  lemma {:induction false} NormCompsPlain(comps: seq<string>, acc: seq<string>)
    requires AllPlain(comps) && AllPlain(acc)
    ensures NormComps(comps, true, acc) == acc + comps
    decreases |comps|
  {
    if comps != [] {
      var c := comps[0];
      assert IsPlainComponent(c);
      assert AllPlain(acc + [c]);
      assert AllPlain(comps[1..]) by {
        assert forall k :: 0 <= k < |comps[1..]| ==> comps[1..][k] == comps[k + 1];
      }
      NormCompsPlain(comps[1..], acc + [c]);
      assert acc + [c] + comps[1..] == acc + comps;
    } else {
      assert acc + comps == acc;
    }
  }

  /** `normpath` returns an absolute path of plain components unchanged. */
  lemma NormPathOfRooted(comps: seq<string>)
    requires AllPlain(comps)
    ensures NormPath(Rooted(comps)) == Rooted(comps)
  {
    if comps == [] {
      NormPathOfRoot();
    } else {
      var p := Rooted(comps);
      RootedSplit(comps);
      NormCompsPlain(comps, []);
      assert [] + comps == comps;
      assert NormPath(p) == "/" + JoinSlash(comps);
    }
  }

  lemma NormPathOfRoot()
    ensures NormPath("/") == "/"
  {
    var p := "/";
    assert LeadingSlashes(p) == "/";
    assert SplitOnSlash("") == [""];
    assert p[1..] == "";
    assert SplitOnSlash(p) == ["", ""];
    assert NormComps(["", ""], true, []) == [];
  }

  /** A rooted path of plain components keeps one leading separator, and
      `split('/')` gives an empty component followed by the components; the
      empty component is dropped by the `normpath` loop. */
  lemma RootedSplit(comps: seq<string>)
    requires AllPlain(comps) && comps != []
    ensures LeadingSlashes(Rooted(comps)) == "/"
    ensures forall k :: 0 <= k < |comps| ==> NoSlash(comps[k])
    ensures NormComps(SplitOnSlash(Rooted(comps)), true, []) == NormComps(comps, true, [])
  {
    RootedLead(comps);
    RootedSplitOnSlash(comps);
    NormCompsSkipsEmpty(comps);
  }

  lemma RootedLead(comps: seq<string>)
    requires AllPlain(comps) && comps != []
    ensures LeadingSlashes(Rooted(comps)) == "/"
  {
    var p := Rooted(comps);
    assert IsPlainComponent(comps[0]);
    FirstCharOfJoin(comps);
    assert p[0] == '/' && p[1] == comps[0][0] != '/';
    assert !StartsWithDouble(p);
  }

  lemma RootedSplitOnSlash(comps: seq<string>)
    requires AllPlain(comps) && comps != []
    ensures SplitOnSlash(Rooted(comps)) == [""] + comps
  {
    var all := [""] + comps;
    JoinSlashCons("", comps);
    assert JoinSlash(all) == Rooted(comps);
    assert forall k :: 0 <= k < |all| ==> NoSlash(all[k]) by {
      forall k | 0 <= k < |all|
        ensures NoSlash(all[k])
      {
        if k > 0 {
          assert all[k] == comps[k - 1] && IsPlainComponent(comps[k - 1]);
        }
      }
    }
    SplitOnSlashJoin(all);
  }

  lemma NormCompsSkipsEmpty(comps: seq<string>)
    requires AllPlain(comps)
    ensures forall k :: 0 <= k < |comps| ==> NoSlash(comps[k])
    ensures forall k :: 0 <= k < |[""] + comps| ==> NoSlash(([""] + comps)[k])
    ensures NormComps([""] + comps, true, []) == NormComps(comps, true, [])
  {
    var all := [""] + comps;
    assert all[0] == "" && all[1..] == comps;
  }

  lemma FirstCharOfJoin(comps: seq<string>)
    requires comps != [] && comps[0] != []
    ensures JoinSlash(comps) != [] && JoinSlash(comps)[0] == comps[0][0]
  {
    if |comps| > 1 {
      assert [comps[0]] + comps[1..] == comps;
      JoinSlashCons(comps[0], comps[1..]);
    }
  }

  /** `abspath` of a plain name relative to a clean absolute directory is
      that directory with the name appended; `abspath` of the directory
      itself is the directory. */
  lemma AbsPathOfRooted(comps: seq<string>, name: string)
    requires AllPlain(comps) && IsPlainComponent(name)
    ensures AbsPath(Rooted(comps), name) == Rooted(comps + [name])
    ensures AbsPath(Rooted(comps), Rooted(comps)) == Rooted(comps)
  {
    var d := Rooted(comps);
    assert d[0] == '/';
    assert name[0] != '/';
    assert AllPlain(comps + [name]);
    if comps == [] {
      assert Join(d, name) == "/" + name;
      assert JoinSlash([name]) == name;
    } else {
      JoinSlashEndsWithLast(comps);
      var last := comps[|comps| - 1];
      assert last != [] && last[|last| - 1] != '/';
      assert d[|d| - 1] != '/';
      assert Join(d, name) == d + "/" + name;
      JoinSlashSnoc(comps, name);
      assert d + "/" + name == Rooted(comps + [name]);
    }
    NormPathOfRooted(comps + [name]);
    NormPathOfRooted(comps);
  }

  /** `os.path.abspath`, given the current working directory (always absolute). */
  function AbsPath(cwd: string, p: string): (r: string)
    requires IsAbs(cwd)
    ensures IsNormalDir(r)
  {
    NormPath(if IsAbs(p) then p else Join(cwd, p))
  }
}

=== FILE: schedule.dfy ===
/** The schedule editor: it locates a Relion schedule's `schedule.star`, asks
    for a new reset value of every variable whose name starts with `set_`
    (floats, then booleans, then strings), and writes the schedule back,
    keeping the original as `schedule.star.bak` unless told not to.

    The terminal is a sequence of answer lines (running out of them is
    end-of-file), the filesystem is the sets of existing files and
    directories plus the parse result of each readable schedule, and the
    writes are returned as a list of actions. */
module Schedule {
  import opened Wrappers
  import opened Text
  import opened Paths
  import opened Star

  // ---------------------------------------------------------------------------
  // Locating the schedule file

  const ScheduleFileName := "schedule.star"
  const SchedulesDirName := "Schedules"

  /** The three places the argument may point to, in the order they are tried:
      the file itself, `<arg>/schedule.star` when `arg` is a directory, and
      `Schedules/<arg>/schedule.star` under the project directory. */
  function Resolve(arg: string, files: set<string>, dirs: set<string>): (r: Option<string>)
    ensures r.Some? ==> r.value in files
    ensures r.None? <==>
              && arg !in files
              && (arg !in dirs || Join(arg, ScheduleFileName) !in files)
              && JoinAll([SchedulesDirName, arg, ScheduleFileName]) !in files
    ensures arg in files ==> r == Some(arg)
    ensures arg !in files && arg in dirs && Join(arg, ScheduleFileName) in files ==>
              r == Some(Join(arg, ScheduleFileName))
    ensures arg !in files && (arg !in dirs || Join(arg, ScheduleFileName) !in files) && r.Some? ==>
              r.value == JoinAll([SchedulesDirName, arg, ScheduleFileName])
    ensures r.Some? && r.value != arg ==> Split(r.value).1 == ScheduleFileName
  {
    if arg in files then Some(arg)
    else if arg in dirs && Join(arg, ScheduleFileName) in files then
      TailOfJoin(arg, ScheduleFileName);
      Some(Join(arg, ScheduleFileName))
    else if JoinAll([SchedulesDirName, arg, ScheduleFileName]) in files then
      assert [SchedulesDirName, arg, ScheduleFileName][..2] == [SchedulesDirName, arg];
      TailOfJoin(JoinAll([SchedulesDirName, arg]), ScheduleFileName);
      Some(JoinAll([SchedulesDirName, arg, ScheduleFileName]))
    else None
  }

  /** A bare schedule name that is neither a file nor a directory of the
      current directory resolves under `Schedules/`. */
  lemma ResolveBareName(name: string, files: set<string>, dirs: set<string>)
    requires name != [] && NoSlash(name)
    requires name !in files && name !in dirs
    requires "Schedules/" + name + "/schedule.star" in files
    ensures Resolve(name, files, dirs) == Some("Schedules/" + name + "/schedule.star")
  {
    var two := [SchedulesDirName, name];
    var three := two + [ScheduleFileName];
    assert two[..1] == [SchedulesDirName];
    assert !IsAbs(name) && JoinAll(two) == Join(SchedulesDirName, name);
    assert JoinAll(two) == "Schedules/" + name;
    assert three[..2] == two && three == [SchedulesDirName, name, ScheduleFileName];
    assert JoinAll(three) == Join(JoinAll(two), ScheduleFileName);
    var d := "Schedules/" + name;
    assert d[|d| - 1] == name[|name| - 1] != '/';
    assert !IsAbs(ScheduleFileName);
    assert JoinAll(three) == "Schedules/" + name + "/schedule.star";
  }

  // ---------------------------------------------------------------------------
  // The schedule as read

  /** A data block is either a loop table (a list of row dictionaries) or a
      plain key/value block (a dictionary). */
  datatype Block = Loop(rows: Table) | Pairs(pairs: Row)

  type ScheduleTables = map<string, Block>

  datatype ScheduleError =
    | NotFound(arg: string)
    | Unparseable(path: string)
    | MissingKey(block: string, key: string)
    | NameNotText(block: string)
    | BadCurrentValue(block: string, name: string)
    | NotLoopTable(block: string)
    | EndOfInput
    | MissingBlock(block: string)

  // ---------------------------------------------------------------------------
  // One prompt

  datatype VarKind = FloatVar | BoolVar | StringVar

  /** The variable tables the editor walks, in order, with the labels of the
      variable name and of the reset value. */
  datatype VarTable = VarTable(block: string, nameKey: string, valueKey: string, kind: VarKind)

  const Floats := VarTable("schedule_floats", "rlnScheduleFloatVariableName",
                           "rlnScheduleFloatVariableResetValue", FloatVar)
  const Bools := VarTable("schedule_bools", "rlnScheduleBooleanVariableName",
                          "rlnScheduleBooleanVariableResetValue", BoolVar)
  const Strings := VarTable("schedule_strings", "rlnScheduleStringVariableName",
                            "rlnScheduleStringVariableResetValue", StringVar)

  /** `strtobool`, lower-casing first. Non-ASCII letters cannot lower-case
      into any of the accepted words, so ASCII lower-casing is exact here. */
  function StrToBool(a: string): (r: Option<int>)
    ensures r.Some? ==> r.value == 0 || r.value == 1
    ensures r == Some(1) <==> LowerAscii(a) in {"y", "yes", "t", "true", "on", "1"}
    ensures r == Some(0) <==> LowerAscii(a) in {"n", "no", "f", "false", "off", "0"}
  {
    var l := LowerAscii(a);
    if l in {"y", "yes", "t", "true", "on", "1"} then Some(1)
    else if l in {"n", "no", "f", "false", "off", "0"} then Some(0)
    else None
  }

  /** A value the editor may store for a variable of this kind: a float, the
      integer 0 or 1, or a non-empty string without whitespace. */
  predicate Acceptable(kind: VarKind, v: Value) {
    match kind
    case FloatVar => v.Num?
    case BoolVar => v == Int(0) || v == Int(1)
    case StringVar => v.Text? && v.text != [] && !HasSpace(v.text)
  }

  /** The current value can be shown in the prompt: `{:f}` needs a number and
      `{:s}` needs a string; the boolean prompt shows any value. */
  predicate Displayable(kind: VarKind, v: Value) {
    match kind
    case FloatVar => !v.Text?
    case BoolVar => true
    case StringVar => v.Text?
  }

  /** What a non-empty stripped answer sets the variable to, if it is
      accepted. `floatOf` is Python's `float()` on finite values. */
  function Accept(kind: VarKind, floatOf: string -> Option<real>, a: string): (r: Option<Value>)
    requires a != []
    ensures r.Some? ==> Acceptable(kind, r.value)
    ensures kind == StringVar ==> (r.Some? <==> !HasSpace(a))
    ensures kind == BoolVar ==> (r.Some? <==> StrToBool(a).Some?)
    ensures kind == FloatVar ==> (r.Some? <==> floatOf(a).Some?)
    ensures r.Some? ==> r.value == match kind
                                   case FloatVar => Num(floatOf(a).value)
                                   case BoolVar => Int(StrToBool(a).value)
                                   case StringVar => Text(a)
  {
    match kind
    case FloatVar => if floatOf(a).Some? then Some(Num(floatOf(a).value)) else None
    case BoolVar => if StrToBool(a).Some? then Some(Int(StrToBool(a).value)) else None
    case StringVar => if HasSpace(a) then None else Some(Text(a))
  }

  predicate Blank(answer: string) {
    Strip(answer) == []
  }

  /** An answer that ends the prompt: blank (keep the value) or accepted. */
  predicate Decisive(kind: VarKind, floatOf: string -> Option<real>, answer: string) {
    Blank(answer) || Accept(kind, floatOf, Strip(answer)).Some?
  }

  /** What a decisive answer does: `None` keeps the current value. */
  function Decision(kind: VarKind, floatOf: string -> Option<real>, answer: string): Option<Value> {
    if Blank(answer) then None else Accept(kind, floatOf, Strip(answer))
  }

  /** `x` is what remains of `z` after reading some of it from the front. */
  predicate IsSuffix(x: seq<string>, z: seq<string>) {
    |x| <= |z| && x == z[|z| - |x|..]
  }

  lemma SuffixOfSuffix(x: seq<string>, y: seq<string>, z: seq<string>)
    requires IsSuffix(y, z) && IsSuffix(x, y)
    ensures IsSuffix(x, z)
  {
  }

  /** The prompt loop: reads answers until one is blank or accepted; returns
      the new value (if any) and the answers not yet read. */
  function Prompt(kind: VarKind, floatOf: string -> Option<real>, answers: seq<string>)
    : (r: Result<(Option<Value>, seq<string>), ScheduleError>)
    ensures r.Err? ==> r.error == EndOfInput
    ensures r.Ok? ==> |r.value.1| < |answers| && IsSuffix(r.value.1, answers)
    ensures r.Ok? && r.value.0.Some? ==> Acceptable(kind, r.value.0.value)
    decreases |answers|
  {
    if answers == [] then Err(EndOfInput)
    else
      var a := Strip(answers[0]);
      if a == [] then Ok((None, answers[1..]))
      else match Accept(kind, floatOf, a)
        case Some(v) => Ok((Some(v), answers[1..]))
        case None => Prompt(kind, floatOf, answers[1..])
  }

  /** None of the first `n` answers is decisive. */
  predicate NoneDecisive(kind: VarKind, floatOf: string -> Option<real>, answers: seq<string>, n: nat)
    requires n <= |answers|
  {
    forall j :: 0 <= j < n ==> !Decisive(kind, floatOf, answers[j])
  }

  lemma NoneDecisiveTail(kind: VarKind, floatOf: string -> Option<real>, answers: seq<string>, n: nat)
    requires 0 < n <= |answers| && NoneDecisive(kind, floatOf, answers, n)
    ensures !Decisive(kind, floatOf, answers[0])
    ensures NoneDecisive(kind, floatOf, answers[1..], n - 1)
  {
    var rest := answers[1..];
    forall j | 0 <= j < n - 1
      ensures !Decisive(kind, floatOf, rest[j])
    {
      assert rest[j] == answers[j + 1];
    }
  }

  /** The prompt is decided by the first decisive answer: it succeeds exactly
      when there is one, and then its outcome is that answer's decision and
      the answers after it remain unread. */
  lemma {:induction false} PromptTakesFirstDecisive(kind: VarKind, floatOf: string -> Option<real>, answers: seq<string>, i: nat)
    requires i < |answers| && Decisive(kind, floatOf, answers[i])
    requires NoneDecisive(kind, floatOf, answers, i)
    ensures Prompt(kind, floatOf, answers) == Ok((Decision(kind, floatOf, answers[i]), answers[i + 1..]))
    decreases i
  {
    if i == 0 {
      PromptDecides(kind, floatOf, answers);
    } else {
      NoneDecisiveTail(kind, floatOf, answers, i);
      PromptSkips(kind, floatOf, answers);
      var rest := answers[1..];
      assert rest[i - 1] == answers[i];
      PromptTakesFirstDecisive(kind, floatOf, rest, i - 1);
      assert rest[i..] == answers[i + 1..];
    }
  }

  /** Without any decisive answer the prompt reads to end-of-file. */
  lemma {:induction false} PromptWithoutDecisive(kind: VarKind, floatOf: string -> Option<real>, answers: seq<string>)
    requires NoneDecisive(kind, floatOf, answers, |answers|)
    ensures Prompt(kind, floatOf, answers) == Err(EndOfInput)
    decreases |answers|
  {
    if answers != [] {
      NoneDecisiveTail(kind, floatOf, answers, |answers|);
      PromptSkips(kind, floatOf, answers);
      PromptWithoutDecisive(kind, floatOf, answers[1..]);
    }
  }

  /** One step of the prompt on a decisive first answer. */
  lemma PromptDecides(kind: VarKind, floatOf: string -> Option<real>, answers: seq<string>)
    requires answers != [] && Decisive(kind, floatOf, answers[0])
    ensures Prompt(kind, floatOf, answers) == Ok((Decision(kind, floatOf, answers[0]), answers[1..]))
  {
  }

  /** One step of the prompt on an answer that is neither blank nor accepted. */
  lemma PromptSkips(kind: VarKind, floatOf: string -> Option<real>, answers: seq<string>)
    requires answers != [] && !Decisive(kind, floatOf, answers[0])
    ensures Prompt(kind, floatOf, answers) == Prompt(kind, floatOf, answers[1..])
  {
  }

  // ---------------------------------------------------------------------------
  // One row, one table

  predicate IsSetName(v: Value) {
    v.Text? && StartsWith(v.text, "set_")
  }

  /** A row the editor can process: both labels present, the name a string,
      and, for a `set_` variable, a current value the prompt can show. */
  predicate WellFormedRow(vt: VarTable, row: Row) {
    && vt.nameKey in row && vt.valueKey in row
    && row[vt.nameKey].Text?
    && (IsSetName(row[vt.nameKey]) ==> Displayable(vt.kind, row[vt.valueKey]))
  }

  /** `after` is `before` with at most the reset value changed, and only for a
      `set_` variable, to a value of the right kind. */
  predicate EditedFrom(vt: VarTable, before: Row, after: Row) {
    && WellFormedRow(vt, before)
    && after.Keys == before.Keys
    && (forall k :: k in before && k != vt.valueKey ==> after[k] == before[k])
    && (!IsSetName(before[vt.nameKey]) ==> after == before)
    && (after[vt.valueKey] != before[vt.valueKey] ==> Acceptable(vt.kind, after[vt.valueKey]))
  }

  function EditRow(vt: VarTable, floatOf: string -> Option<real>, row: Row, answers: seq<string>)
    : (r: Result<(Row, seq<string>), ScheduleError>)
    ensures r.Ok? <==> WellFormedRow(vt, row) && (IsSetName(row[vt.nameKey]) ==> Prompt(vt.kind, floatOf, answers).Ok?)
    ensures r.Ok? ==> EditedFrom(vt, row, r.value.0)
    ensures r.Ok? && !IsSetName(row[vt.nameKey]) ==> r.value.1 == answers
    ensures r.Ok? && IsSetName(row[vt.nameKey]) ==> r.value.1 == Prompt(vt.kind, floatOf, answers).value.1
    ensures r.Ok? && IsSetName(row[vt.nameKey]) ==>
              var p := Prompt(vt.kind, floatOf, answers).value;
              r.value.0 == if p.0.Some? then row[vt.valueKey := p.0.value] else row
  {
    if vt.nameKey !in row then Err(MissingKey(vt.block, vt.nameKey))
    else if vt.valueKey !in row then Err(MissingKey(vt.block, vt.valueKey))
    else if !row[vt.nameKey].Text? then Err(NameNotText(vt.block))
    else if !IsSetName(row[vt.nameKey]) then Ok((row, answers))
    else if !Displayable(vt.kind, row[vt.valueKey]) then Err(BadCurrentValue(vt.block, row[vt.nameKey].text))
    else match Prompt(vt.kind, floatOf, answers)
      case Err(e) => Err(e)
      case Ok((v, rest)) => Ok((if v.Some? then row[vt.valueKey := v.value] else row, rest))
  }

  predicate AllWellFormed(vt: VarTable, rows: Table) {
    forall i :: 0 <= i < |rows| ==> WellFormedRow(vt, rows[i])
  }

  /** `after` is `before` edited row by row. */
  predicate AllEdited(vt: VarTable, before: Table, after: Table) {
    |after| == |before| && forall i :: 0 <= i < |before| ==> EditedFrom(vt, before[i], after[i])
  }

  lemma AllEditedCons(vt: VarTable, rows: Table, head: Row, tail: Table)
    requires rows != [] && EditedFrom(vt, rows[0], head)
    requires AllWellFormed(vt, rows[1..]) && AllEdited(vt, rows[1..], tail)
    ensures AllWellFormed(vt, rows) && AllEdited(vt, rows, [head] + tail)
  {
    var out := [head] + tail;
    forall i | 1 <= i < |rows|
      ensures WellFormedRow(vt, rows[i]) && EditedFrom(vt, rows[i], out[i])
    {
      assert rows[i] == rows[1..][i - 1] && out[i] == tail[i - 1];
    }
  }

  /** The number of `set_` variables among the rows, one prompt each. */
  function SetRowCount(vt: VarTable, rows: Table): nat {
    if rows == [] then 0
    else (if vt.nameKey in rows[0] && IsSetName(rows[0][vt.nameKey]) then 1 else 0) + SetRowCount(vt, rows[1..])
  }

  /** The loop over a variable table; answers are shared across rows. */
  function EditRows(vt: VarTable, floatOf: string -> Option<real>, rows: Table, answers: seq<string>)
    : (r: Result<(Table, seq<string>), ScheduleError>)
    ensures r.Ok? ==> AllWellFormed(vt, rows)
    ensures r.Ok? ==> AllEdited(vt, rows, r.value.0)
    ensures r.Ok? ==> |r.value.1| + SetRowCount(vt, rows) <= |answers| && IsSuffix(r.value.1, answers)
    decreases rows
  {
    if rows == [] then Ok(([], answers))
    else
      var rh := EditRow(vt, floatOf, rows[0], answers);
      if rh.Err? then Err(rh.error) else
      var rt := EditRows(vt, floatOf, rows[1..], rh.value.1);
      if rt.Err? then Err(rt.error) else
      var out := [rh.value.0] + rt.value.0;
      AllEditedCons(vt, rows, rh.value.0, rt.value.0);
      SuffixOfSuffix(rt.value.1, rh.value.1, answers);
      Ok((out, rt.value.1))
  }

  /** A blank answer keeps a well-formed row and is the only answer read. */
  lemma BlankAnswerKeepsRow(vt: VarTable, floatOf: string -> Option<real>, row: Row, answers: seq<string>)
    requires WellFormedRow(vt, row)
    requires answers != [] && Blank(answers[0])
    ensures EditRow(vt, floatOf, row, answers)
            == Ok((row, if IsSetName(row[vt.nameKey]) then answers[1..] else answers))
  {
    if IsSetName(row[vt.nameKey]) {
      assert Strip(answers[0]) == [];
      assert Prompt(vt.kind, floatOf, answers) == Ok((None, answers[1..]));
      assert EditRow(vt, floatOf, row, answers) == Ok((row, answers[1..]));
    } else {
      assert EditRow(vt, floatOf, row, answers) == Ok((row, answers));
    }
  }

  predicate AllBlank(answers: seq<string>) {
    forall j :: 0 <= j < |answers| ==> Blank(answers[j])
  }

  lemma AllBlankSuffix(answers: seq<string>, k: nat)
    requires k <= |answers|
    requires AllBlank(answers)
    ensures AllBlank(answers[k..])
  {
    forall j | 0 <= j < |answers[k..]| ensures Blank(answers[k..][j]) {
      assert answers[k..][j] == answers[k + j];
    }
  }

  lemma AllWellFormedTail(vt: VarTable, rows: Table)
    requires rows != [] && AllWellFormed(vt, rows)
    ensures WellFormedRow(vt, rows[0]) && AllWellFormed(vt, rows[1..])
  {
    assert forall i :: 0 <= i < |rows| - 1 ==> rows[1..][i] == rows[i + 1];
  }

  /** A first row and the remaining rows that both come back unchanged give
      the whole table back. */
  lemma EditRowsKeepCons(vt: VarTable, floatOf: string -> Option<real>, rows: Table,
                         answers: seq<string>, mid: seq<string>, rest: seq<string>)
    requires rows != []
    requires EditRow(vt, floatOf, rows[0], answers) == Ok((rows[0], mid))
    requires EditRows(vt, floatOf, rows[1..], mid) == Ok((rows[1..], rest))
    ensures EditRows(vt, floatOf, rows, answers) == Ok((rows, rest))
  {
    assert [rows[0]] + rows[1..] == rows;
  }

  /** Blank answers keep every value: with one blank answer per `set_`
      variable the table comes back unchanged. */
  lemma {:induction false} BlankAnswersKeep(vt: VarTable, floatOf: string -> Option<real>, rows: Table, answers: seq<string>)
    requires AllWellFormed(vt, rows)
    requires AllBlank(answers)
    requires SetRowCount(vt, rows) <= |answers|
    ensures EditRows(vt, floatOf, rows, answers) == Ok((rows, answers[SetRowCount(vt, rows)..]))
    decreases rows
  {
    if rows != [] {
      var k: nat := if IsSetName(rows[0][vt.nameKey]) then 1 else 0;
      if k == 1 {
        BlankAnswerKeepsRow(vt, floatOf, rows[0], answers);
      }
      assert EditRow(vt, floatOf, rows[0], answers) == Ok((rows[0], answers[k..]));
      AllBlankSuffix(answers, k);
      AllWellFormedTail(vt, rows);
      BlankAnswersKeep(vt, floatOf, rows[1..], answers[k..]);
      var rest := answers[k..][SetRowCount(vt, rows[1..])..];
      assert rest == answers[SetRowCount(vt, rows)..];
      EditRowsKeepCons(vt, floatOf, rows, answers, answers[k..], rest);
    }
  }

  /** An answer that sets a variable: not blank, and accepted for its kind. */
  predicate Accepted(kind: VarKind, floatOf: string -> Option<real>, answer: string) {
    Strip(answer) != [] && Accept(kind, floatOf, Strip(answer)).Some?
  }

  predicate AllAccepted(kind: VarKind, floatOf: string -> Option<real>, answers: seq<string>) {
    forall j :: 0 <= j < |answers| ==> Accepted(kind, floatOf, answers[j])
  }

  /** The value an accepted answer stores. */
  function AcceptedValue(kind: VarKind, floatOf: string -> Option<real>, answer: string): Value
    requires Accepted(kind, floatOf, answer)
  {
    Accept(kind, floatOf, Strip(answer)).value
  }

  /** An accepted answer sets a `set_` row's reset value and is the only
      answer read; any other row reads no answer and stays as it is. */
  lemma AcceptedAnswerSetsRow(vt: VarTable, floatOf: string -> Option<real>, row: Row, answers: seq<string>)
    requires WellFormedRow(vt, row)
    requires answers != [] && Accepted(vt.kind, floatOf, answers[0])
    ensures IsSetName(row[vt.nameKey]) ==>
              EditRow(vt, floatOf, row, answers) ==
                Ok((row[vt.valueKey := AcceptedValue(vt.kind, floatOf, answers[0])], answers[1..]))
    ensures !IsSetName(row[vt.nameKey]) ==> EditRow(vt, floatOf, row, answers) == Ok((row, answers))
  {
    if IsSetName(row[vt.nameKey]) {
      PromptDecides(vt.kind, floatOf, answers);
    }
  }

  lemma AllAcceptedSuffix(kind: VarKind, floatOf: string -> Option<real>, answers: seq<string>, k: nat)
    requires k <= |answers| && AllAccepted(kind, floatOf, answers)
    ensures AllAccepted(kind, floatOf, answers[k..])
  {
    forall j | 0 <= j < |answers| - k ensures Accepted(kind, floatOf, answers[k..][j]) {
      assert answers[k..][j] == answers[k + j];
    }
  }

  /** The `set_` rows before row `i`: the head's count plus those of the tail. */
  lemma SetRowCountPrefix(vt: VarTable, rows: Table, i: nat)
    requires 1 <= i <= |rows|
    ensures SetRowCount(vt, rows[..i]) ==
              (if vt.nameKey in rows[0] && IsSetName(rows[0][vt.nameKey]) then 1 else 0) + SetRowCount(vt, rows[1..][..i - 1])
  {
    assert rows[..i][0] == rows[0];
    assert rows[..i][1..] == rows[1..][..i - 1];
  }

  /** Row `i` of `out` is row `i` of `rows` with its variable set from the
      answer that row's prompt reads: the `k`-th answer for the `k`-th
      `set_` row. */
  predicate SetAt(vt: VarTable, floatOf: string -> Option<real>, rows: Table, answers: seq<string>, out: Table, i: nat)
    requires AllWellFormed(vt, rows) && |out| == |rows| && i < |rows|
  {
    if IsSetName(rows[i][vt.nameKey]) then
      && SetRowCount(vt, rows[..i]) < |answers|
      && Accepted(vt.kind, floatOf, answers[SetRowCount(vt, rows[..i])])
      && out[i] == rows[i][vt.valueKey := AcceptedValue(vt.kind, floatOf, answers[SetRowCount(vt, rows[..i])])]
    else out[i] == rows[i]
  }

  predicate SetInOrder(vt: VarTable, floatOf: string -> Option<real>, rows: Table, answers: seq<string>, out: Table)
    requires AllWellFormed(vt, rows) && |out| == |rows|
  {
    forall i :: 0 <= i < |rows| ==> SetAt(vt, floatOf, rows, answers, out, i)
  }

  /** Answers that are all accepted set the variables in order: the `k`-th
      `set_` row gets the value of the `k`-th answer, every other row stays
      as it is, and exactly one answer is read per `set_` row. */
  lemma {:induction false} AcceptedAnswersSet(vt: VarTable, floatOf: string -> Option<real>, rows: Table, answers: seq<string>)
    requires AllWellFormed(vt, rows)
    requires AllAccepted(vt.kind, floatOf, answers)
    requires SetRowCount(vt, rows) <= |answers|
    ensures EditRows(vt, floatOf, rows, answers).Ok?
    ensures var r := EditRows(vt, floatOf, rows, answers).value;
            && |r.0| == |rows|
            && r.1 == answers[SetRowCount(vt, rows)..]
            && SetInOrder(vt, floatOf, rows, answers, r.0)
    decreases rows
  {
    if rows != [] {
      var h := rows[0];
      assert WellFormedRow(vt, h);
      var isSet := IsSetName(h[vt.nameKey]);
      var k: nat := if isSet then 1 else 0;
      assert SetRowCount(vt, rows) == k + SetRowCount(vt, rows[1..]);
      var h' := if isSet then h[vt.valueKey := AcceptedValue(vt.kind, floatOf, answers[0])] else h;
      if isSet {
        AcceptedAnswerSetsRow(vt, floatOf, h, answers);
      }
      assert EditRow(vt, floatOf, h, answers) == Ok((h', answers[k..]));
      var tail := rows[1..];
      assert forall i :: 0 <= i < |tail| ==> tail[i] == rows[i + 1];
      assert AllWellFormed(vt, tail);
      AllAcceptedSuffix(vt.kind, floatOf, answers, k);
      var rest := answers[k..];
      AcceptedAnswersSet(vt, floatOf, tail, rest);
      var rt := EditRows(vt, floatOf, tail, rest).value;
      assert EditRows(vt, floatOf, rows, answers) == Ok(([h'] + rt.0, rt.1));
      assert rt.1 == answers[SetRowCount(vt, rows)..];
      SetInOrderCons(vt, floatOf, rows, answers, k, h', rt.0);
    }
  }

  /** `SetInOrder` for a table from its head row and its tail. */
  lemma SetInOrderCons(vt: VarTable, floatOf: string -> Option<real>, rows: Table, answers: seq<string>,
                       k: nat, h': Row, tail': Table)
    requires rows != [] && AllWellFormed(vt, rows) && AllWellFormed(vt, rows[1..])
    requires k == (if IsSetName(rows[0][vt.nameKey]) then 1 else 0) && k <= |answers|
    requires k == 1 ==> Accepted(vt.kind, floatOf, answers[0])
                        && h' == rows[0][vt.valueKey := AcceptedValue(vt.kind, floatOf, answers[0])]
    requires k == 0 ==> h' == rows[0]
    requires |tail'| == |rows| - 1 && SetInOrder(vt, floatOf, rows[1..], answers[k..], tail')
    ensures SetInOrder(vt, floatOf, rows, answers, [h'] + tail')
  {
    var out := [h'] + tail';
    forall i | 0 <= i < |rows|
      ensures SetAt(vt, floatOf, rows, answers, out, i)
    {
      if i == 0 {
        assert rows[..0] == [];
      } else {
        assert SetAt(vt, floatOf, rows[1..], answers[k..], tail', i - 1);
        SetAtShift(vt, floatOf, rows, answers, k, out, tail', i);
      }
    }
  }

  lemma SetAtShift(vt: VarTable, floatOf: string -> Option<real>, rows: Table, answers: seq<string>,
                   k: nat, out: Table, tail': Table, i: nat)
    requires 1 <= i < |rows| && AllWellFormed(vt, rows) && AllWellFormed(vt, rows[1..])
    requires k == (if IsSetName(rows[0][vt.nameKey]) then 1 else 0) && k <= |answers|
    requires |out| == |rows| && |tail'| == |rows| - 1 && out[i] == tail'[i - 1]
    requires SetAt(vt, floatOf, rows[1..], answers[k..], tail', i - 1)
    ensures SetAt(vt, floatOf, rows, answers, out, i)
  {
    var tail, rest := rows[1..], answers[k..];
    var row := rows[i];
    assert row == tail[i - 1];
    assert WellFormedRow(vt, rows[0]);
    SetRowCountPrefix(vt, rows, i);
    var m := SetRowCount(vt, tail[..i - 1]);
    var c := SetRowCount(vt, rows[..i]);
    assert c == k + m;
    if IsSetName(row[vt.nameKey]) {
      assert m < |rest| && Accepted(vt.kind, floatOf, rest[m]);
      assert rest[m] == answers[c];
      var v := AcceptedValue(vt.kind, floatOf, rest[m]);
      assert tail'[i - 1] == row[vt.valueKey := v];
      assert out[i] == row[vt.valueKey := AcceptedValue(vt.kind, floatOf, answers[c])];
    } else {
      assert out[i] == row;
    }
  }

  /** An edited row is processed the same way again: still well formed and
      still a `set_` variable exactly when it was one. */
  lemma EditedRowStaysWellFormed(vt: VarTable, before: Row, after: Row)
    requires vt.nameKey != vt.valueKey
    requires EditedFrom(vt, before, after)
    ensures WellFormedRow(vt, after)
    ensures IsSetName(after[vt.nameKey]) == IsSetName(before[vt.nameKey])
  {
    assert after[vt.nameKey] == before[vt.nameKey];
  }

  lemma {:induction false} EditedRowsCount(vt: VarTable, before: Table, after: Table)
    requires vt.nameKey != vt.valueKey
    requires AllEdited(vt, before, after)
    ensures AllWellFormed(vt, after)
    ensures SetRowCount(vt, after) == SetRowCount(vt, before)
    decreases |before|
  {
    forall i | 0 <= i < |after| ensures WellFormedRow(vt, after[i]) {
      EditedRowStaysWellFormed(vt, before[i], after[i]);
    }
    if before != [] {
      EditedRowStaysWellFormed(vt, before[0], after[0]);
      assert forall i :: 0 <= i < |before| - 1 ==> before[1..][i] == before[i + 1] && after[1..][i] == after[i + 1];
      EditedRowsCount(vt, before[1..], after[1..]);
    }
  }

  /** Editing settles: answering blank to every prompt of an edited table
      gives the edited table back. */
  lemma EditThenKeep(vt: VarTable, floatOf: string -> Option<real>, rows: Table, answers: seq<string>, blanks: seq<string>)
    requires vt.nameKey != vt.valueKey
    requires EditRows(vt, floatOf, rows, answers).Ok?
    requires forall j :: 0 <= j < |blanks| ==> Blank(blanks[j])
    requires SetRowCount(vt, rows) <= |blanks|
    ensures var edited := EditRows(vt, floatOf, rows, answers).value.0;
            EditRows(vt, floatOf, edited, blanks) == Ok((edited, blanks[SetRowCount(vt, rows)..]))
  {
    var edited := EditRows(vt, floatOf, rows, answers).value.0;
    EditedRowsCount(vt, rows, edited);
    BlankAnswersKeep(vt, floatOf, edited, blanks);
  }

  // ---------------------------------------------------------------------------
  // Whole blocks and the whole schedule

  /** The number of prompts a block asks when every answer is decisive. */
  function SetVariables(vt: VarTable, sched: ScheduleTables): nat {
    if vt.block in sched && sched[vt.block].Loop? then SetRowCount(vt, sched[vt.block].rows) else 0
  }

  /** A block the editor gets through: absent, an empty dictionary (nothing to
      iterate), or a loop table of well-formed rows. */
  predicate EditableBlock(vt: VarTable, sched: ScheduleTables) {
    || vt.block !in sched
    || sched[vt.block] == Pairs(map[])
    || (sched[vt.block].Loop? && AllWellFormed(vt, sched[vt.block].rows))
  }

  /** `for row in schedule[block]: ...` on a block that is present.
      Iterating a non-empty dictionary yields its keys, and indexing a key
      string by a label fails. */
  function EditBlock(vt: VarTable, floatOf: string -> Option<real>, block: Block, answers: seq<string>)
    : (r: Result<(Block, seq<string>), ScheduleError>)
    ensures block.Pairs? ==> (r.Ok? <==> block.pairs == map[])
    ensures r.Ok? && block.Pairs? ==> r.value.0 == block
    ensures r.Ok? && block.Loop? ==>
              && r.value.0.Loop?
              && AllWellFormed(vt, block.rows)
              && AllEdited(vt, block.rows, r.value.0.rows)
              && |r.value.1| + SetRowCount(vt, block.rows) <= |answers|
    ensures block.Loop? ==>
              (r.Ok? <==> EditRows(vt, floatOf, block.rows, answers).Ok?)
    ensures r.Ok? && block.Loop? ==>
              r.value == (Loop(EditRows(vt, floatOf, block.rows, answers).value.0),
                          EditRows(vt, floatOf, block.rows, answers).value.1)
    ensures r.Ok? ==> IsSuffix(r.value.1, answers)
  {
    match block
    case Pairs(m) => if m == map[] then Ok((block, answers)) else Err(NotLoopTable(vt.block))
    case Loop(rows) =>
      var e :- EditRows(vt, floatOf, rows, answers);
      Ok((Loop(e.0), e.1))
  }

  /** `if block in schedule: ...`: the block, if present, is replaced by its
      edited version. */
  function EditIn(vt: VarTable, floatOf: string -> Option<real>, sched: ScheduleTables, answers: seq<string>)
    : (r: Result<(ScheduleTables, seq<string>), ScheduleError>)
    ensures vt.block !in sched ==> r == Ok((sched, answers))
    ensures r.Ok? ==> r.value.0.Keys == sched.Keys
    ensures r.Ok? ==> forall b :: b in sched && b != vt.block ==> r.value.0[b] == sched[b]
    ensures r.Ok? ==> IsSuffix(r.value.1, answers)
    ensures vt.block in sched ==> (r.Ok? <==> EditBlock(vt, floatOf, sched[vt.block], answers).Ok?)
    ensures r.Ok? && vt.block in sched ==>
              var e := EditBlock(vt, floatOf, sched[vt.block], answers).value;
              r.value.0[vt.block] == e.0 && r.value.1 == e.1
  {
    if vt.block !in sched then Ok((sched, answers))
    else
      var e :- EditBlock(vt, floatOf, sched[vt.block], answers);
      Ok((sched[vt.block := e.0], e.1))
  }

  /** The three variable blocks in order, sharing one stream of answers. */
  function EditSchedule(floatOf: string -> Option<real>, sched: ScheduleTables, answers: seq<string>)
    : (r: Result<(ScheduleTables, seq<string>), ScheduleError>)
    ensures r.Ok? ==> r.value.0.Keys == sched.Keys
    ensures r.Ok? ==> forall b :: b in sched && b !in {Floats.block, Bools.block, Strings.block} ==> r.value.0[b] == sched[b]
    ensures r.Ok? ==> IsSuffix(r.value.1, answers)
  {
    var f :- EditIn(Floats, floatOf, sched, answers);
    var b :- EditIn(Bools, floatOf, f.0, f.1);
    var s :- EditIn(Strings, floatOf, b.0, b.1);
    SuffixOfSuffix(s.1, b.1, f.1);
    SuffixOfSuffix(s.1, f.1, answers);
    Ok(s)
  }

  /** Each variable block of the result is that block of the schedule as
      read, edited by its own table, with the answers the earlier blocks
      left over: floats first, then bools, then strings. */
  lemma EditScheduleBlocks(floatOf: string -> Option<real>, sched: ScheduleTables, answers: seq<string>)
    requires EditSchedule(floatOf, sched, answers).Ok?
    ensures var out := EditSchedule(floatOf, sched, answers).value;
            var f := EditIn(Floats, floatOf, sched, answers);
            && f.Ok?
            && var b := EditIn(Bools, floatOf, sched, f.value.1);
            && b.Ok?
            && var st := EditIn(Strings, floatOf, sched, b.value.1);
            && st.Ok?
            && out.1 == st.value.1
            && (Floats.block in sched ==> out.0[Floats.block] == f.value.0[Floats.block])
            && (Bools.block in sched ==> out.0[Bools.block] == b.value.0[Bools.block])
            && (Strings.block in sched ==> out.0[Strings.block] == st.value.0[Strings.block])
  {
    var f := EditIn(Floats, floatOf, sched, answers).value;
    if Bools.block in sched {
      assert f.0[Bools.block] == sched[Bools.block];
    }
    var b := EditIn(Bools, floatOf, f.0, f.1).value;
    if Strings.block in sched {
      assert b.0[Strings.block] == f.0[Strings.block] == sched[Strings.block];
    }
  }

  lemma BlankBlockKeeps(vt: VarTable, floatOf: string -> Option<real>, sched: ScheduleTables, answers: seq<string>)
    requires EditableBlock(vt, sched)
    requires AllBlank(answers)
    requires SetVariables(vt, sched) <= |answers|
    ensures EditIn(vt, floatOf, sched, answers) == Ok((sched, answers[SetVariables(vt, sched)..]))
  {
    if vt.block in sched {
      var block := sched[vt.block];
      var k := SetVariables(vt, sched);
      if block.Loop? {
        BlankAnswersKeep(vt, floatOf, block.rows, answers);
        assert EditRows(vt, floatOf, block.rows, answers) == Ok((block.rows, answers[k..]));
      }
      assert EditBlock(vt, floatOf, block, answers) == Ok((block, answers[k..]));
      assert sched[vt.block := block] == sched;
    }
  }

  /** Blank answers throughout leave the schedule as it was read. */
  lemma BlankScheduleKeeps(floatOf: string -> Option<real>, sched: ScheduleTables, answers: seq<string>)
    requires EditableBlock(Floats, sched) && EditableBlock(Bools, sched) && EditableBlock(Strings, sched)
    requires AllBlank(answers)
    requires SetVariables(Floats, sched) + SetVariables(Bools, sched) + SetVariables(Strings, sched) <= |answers|
    ensures EditSchedule(floatOf, sched, answers).Ok?
    ensures EditSchedule(floatOf, sched, answers).value.0 == sched
  {
    var k1 := SetVariables(Floats, sched);
    var k2 := SetVariables(Bools, sched);
    BlankBlockKeeps(Floats, floatOf, sched, answers);
    AllBlankSuffix(answers, k1);
    BlankBlockKeeps(Bools, floatOf, sched, answers[k1..]);
    AllBlankSuffix(answers[k1..], k2);
    BlankBlockKeeps(Strings, floatOf, sched, answers[k1..][k2..]);
  }

  // ---------------------------------------------------------------------------
  // Writing back

  const GeneralBlock := "schedule_general"
  const TableBlocks := ["schedule_floats", "schedule_bools", "schedule_strings",
                        "schedule_operators", "schedule_jobs", "schedule_edges"]

  datatype Action =
    | Rename(from: string, to: string)
    | Create(path: string)
    | WriteDictBlock(path: string, name: string, block: Block)
    | WriteTable(path: string, name: string, block: Block)

  /** `a` writes to `path` the block of `sched` it names. */
  predicate WritesBlockOf(a: Action, path: string, sched: ScheduleTables) {
    && (a.WriteDictBlock? || a.WriteTable?)
    && a.path == path
    && a.name in sched
    && a.block == sched[a.name]
  }

  /** The table writes, stopping at the first block the schedule lacks. */
  function WriteTables(path: string, sched: ScheduleTables, names: seq<string>)
    : (r: (seq<Action>, Option<ScheduleError>))
    ensures |r.0| <= |names|
    ensures forall i :: 0 <= i < |r.0| ==> names[i] in sched && r.0[i] == WriteTable(path, names[i], sched[names[i]])
    ensures r.1.None? <==> forall i :: 0 <= i < |names| ==> names[i] in sched
    ensures r.1.None? ==> |r.0| == |names|
    ensures r.1.Some? ==> |r.0| < |names| && names[|r.0|] !in sched && r.1 == Some(MissingBlock(names[|r.0|]))
  {
    if names == [] then ([], None)
    else if names[0] !in sched then ([], Some(MissingBlock(names[0])))
    else
      var rest := WriteTables(path, sched, names[1..]);
      ([WriteTable(path, names[0], sched[names[0]])] + rest.0, rest.1)
  }

  /** Opening the file for writing truncates it; the general block goes
      first, then the six tables in their fixed order. */
  function WriteSchedule(path: string, sched: ScheduleTables): (r: (seq<Action>, Option<ScheduleError>))
    ensures r.0 != [] && r.0[0] == Create(path)
    ensures forall j :: 1 <= j < |r.0| ==> WritesBlockOf(r.0[j], path, sched)
    ensures r.1.None? <==> GeneralBlock in sched && forall i :: 0 <= i < |TableBlocks| ==> TableBlocks[i] in sched
    ensures r.1.None? ==>
              && |r.0| == 2 + |TableBlocks|
              && r.0[1] == WriteDictBlock(path, GeneralBlock, sched[GeneralBlock])
              && forall i :: 0 <= i < |TableBlocks| ==> r.0[i + 2] == WriteTable(path, TableBlocks[i], sched[TableBlocks[i]])
  {
    if GeneralBlock !in sched then ([Create(path)], Some(MissingBlock(GeneralBlock)))
    else
      var t := WriteTables(path, sched, TableBlocks);
      var w := [Create(path), WriteDictBlock(path, GeneralBlock, sched[GeneralBlock])] + t.0;
      assert forall j :: 2 <= j < |w| ==> w[j] == t.0[j - 2];
      (w, t.1)
  }

  // ---------------------------------------------------------------------------
  // The whole run

  /** The filesystem actions taken, in order, and the error that stopped the
      run (`None` when it finished). */
  datatype RunResult = RunResult(actions: seq<Action>, error: Option<ScheduleError>)

  function BackupActions(path: string, noBackup: bool): seq<Action> {
    if noBackup then [] else [Rename(path, path + ".bak")]
  }

  /** One run of the editor. `parsed` holds the tables of every schedule file
      that reads without a parse error. */
  function Run(arg: string, files: set<string>, dirs: set<string>, parsed: map<string, ScheduleTables>,
               floatOf: string -> Option<real>, answers: seq<string>, noBackup: bool): (r: RunResult)
    ensures Resolve(arg, files, dirs).None? ==> r == RunResult([], Some(NotFound(arg)))
    ensures r.actions != [] <==>
              && Resolve(arg, files, dirs).Some?
              && Resolve(arg, files, dirs).value in parsed
              && EditSchedule(floatOf, parsed[Resolve(arg, files, dirs).value], answers).Ok?
    ensures r.actions != [] ==>
              var path := Resolve(arg, files, dirs).value;
              && (noBackup ==> r.actions[0] == Create(path))
              && (!noBackup ==> |r.actions| >= 2 && r.actions[0] == Rename(path, path + ".bak") && r.actions[1] == Create(path))
    ensures r.actions == [] ==> r.error.Some?
  {
    match Resolve(arg, files, dirs)
    case None => RunResult([], Some(NotFound(arg)))
    case Some(path) =>
      if path !in parsed then RunResult([], Some(Unparseable(path)))
      else match EditSchedule(floatOf, parsed[path], answers)
        case Err(e) => RunResult([], Some(e))
        case Ok(edited) =>
          var w := WriteSchedule(path, edited.0);
          RunResult(BackupActions(path, noBackup) + w.0, w.1)
  }

  /** The actions of a run that gets past editing: the backup, then the
      writes of the edited schedule. */
  lemma RunUnfold(arg: string, files: set<string>, dirs: set<string>, parsed: map<string, ScheduleTables>,
                  floatOf: string -> Option<real>, answers: seq<string>, noBackup: bool)
    requires Resolve(arg, files, dirs).Some?
    requires Resolve(arg, files, dirs).value in parsed
    requires EditSchedule(floatOf, parsed[Resolve(arg, files, dirs).value], answers).Ok?
    ensures var path := Resolve(arg, files, dirs).value;
            var w := WriteSchedule(path, EditSchedule(floatOf, parsed[path], answers).value.0);
            Run(arg, files, dirs, parsed, floatOf, answers, noBackup) == RunResult(BackupActions(path, noBackup) + w.0, w.1)
  {
  }

  /** From index `b` on, `acts` truncates `path` and writes blocks of
      `sched` to it; with no error, exactly the general block and then the
      six tables. */
  predicate WritesFrom(acts: seq<Action>, b: nat, error: Option<ScheduleError>, path: string, sched: ScheduleTables) {
    && |acts| > b
    && acts[b] == Create(path)
    && (forall j :: b < j < |acts| ==> WritesBlockOf(acts[j], path, sched))
    && (error.None? <==> GeneralBlock in sched && forall i :: 0 <= i < |TableBlocks| ==> TableBlocks[i] in sched)
    && (error.None? ==>
          && |acts| == b + 2 + |TableBlocks|
          && acts[b + 1] == WriteDictBlock(path, GeneralBlock, sched[GeneralBlock])
          && forall i :: 0 <= i < |TableBlocks| ==>
               acts[b + 2 + i] == WriteTable(path, TableBlocks[i], sched[TableBlocks[i]]))
  }

  lemma WritesFromShift(x: Action, acts: seq<Action>, b: nat, error: Option<ScheduleError>, path: string, sched: ScheduleTables)
    requires WritesFrom(acts, b, error, path, sched)
    ensures WritesFrom([x] + acts, b + 1, error, path, sched)
  {
    var xs := [x] + acts;
    assert forall j :: 1 <= j < |xs| ==> xs[j] == acts[j - 1];
    forall j | b + 1 < j < |xs|
      ensures WritesBlockOf(xs[j], path, sched)
    {
      assert xs[j] == acts[j - 1];
    }
    if error.None? {
      forall i | 0 <= i < |TableBlocks|
        ensures xs[b + 1 + 2 + i] == WriteTable(path, TableBlocks[i], sched[TableBlocks[i]])
      {
        assert xs[b + 1 + 2 + i] == acts[b + 2 + i];
      }
    }
  }

  lemma BackupThenWrite(path: string, sched: ScheduleTables, noBackup: bool)
    ensures var w := WriteSchedule(path, sched);
            var acts := BackupActions(path, noBackup) + w.0;
            && (!noBackup ==> acts[0] == Rename(path, path + ".bak"))
            && WritesFrom(acts, if noBackup then 0 else 1, w.1, path, sched)
  {
    var w := WriteSchedule(path, sched);
    assert WritesFrom(w.0, 0, w.1, path, sched);
    if noBackup {
      assert BackupActions(path, noBackup) + w.0 == w.0;
    } else {
      WritesFromShift(Rename(path, path + ".bak"), w.0, 0, w.1, path, sched);
    }
  }

  /** A run that gets past editing truncates the file it read, after keeping
      the original unless told not to, and writes only blocks of the edited
      schedule to it: the general block, then the six tables in order. It
      finishes exactly when the edited schedule has all seven blocks. */
  lemma RunWritesEdited(arg: string, files: set<string>, dirs: set<string>, parsed: map<string, ScheduleTables>,
                        floatOf: string -> Option<real>, answers: seq<string>, noBackup: bool)
    requires Resolve(arg, files, dirs).Some?
    requires Resolve(arg, files, dirs).value in parsed
    requires EditSchedule(floatOf, parsed[Resolve(arg, files, dirs).value], answers).Ok?
    ensures var path := Resolve(arg, files, dirs).value;
            var edited := EditSchedule(floatOf, parsed[path], answers).value.0;
            var r := Run(arg, files, dirs, parsed, floatOf, answers, noBackup);
            var b := if noBackup then 0 else 1;
            && |r.actions| > b
            && (!noBackup ==> r.actions[0] == Rename(path, path + ".bak"))
            && r.actions[b] == Create(path)
            && (forall j :: b < j < |r.actions| ==> WritesBlockOf(r.actions[j], path, edited))
            && (r.error.None? <==> GeneralBlock in edited && forall i :: 0 <= i < |TableBlocks| ==> TableBlocks[i] in edited)
            && (r.error.None? ==>
                  && |r.actions| == b + 2 + |TableBlocks|
                  && r.actions[b + 1] == WriteDictBlock(path, GeneralBlock, edited[GeneralBlock])
                  && forall i :: 0 <= i < |TableBlocks| ==>
                       r.actions[b + 2 + i] == WriteTable(path, TableBlocks[i], edited[TableBlocks[i]]))
  {
    var path := Resolve(arg, files, dirs).value;
    var edited := EditSchedule(floatOf, parsed[path], answers).value.0;
    RunUnfold(arg, files, dirs, parsed, floatOf, answers, noBackup);
    BackupThenWrite(path, edited, noBackup);
    var r := Run(arg, files, dirs, parsed, floatOf, answers, noBackup);
    assert WritesFrom(r.actions, if noBackup then 0 else 1, r.error, path, edited);
  }

  /** Answering every prompt with an empty line rewrites the schedule with
      the tables exactly as they were read. */
  lemma BlankRunRewritesOriginal(arg: string, files: set<string>, dirs: set<string>, parsed: map<string, ScheduleTables>,
                                 floatOf: string -> Option<real>, answers: seq<string>, noBackup: bool)
    requires Resolve(arg, files, dirs).Some?
    requires Resolve(arg, files, dirs).value in parsed
    requires var sched := parsed[Resolve(arg, files, dirs).value];
             && EditableBlock(Floats, sched) && EditableBlock(Bools, sched) && EditableBlock(Strings, sched)
             && SetVariables(Floats, sched) + SetVariables(Bools, sched) + SetVariables(Strings, sched) <= |answers|
    requires AllBlank(answers)
    ensures var path := Resolve(arg, files, dirs).value;
            Run(arg, files, dirs, parsed, floatOf, answers, noBackup)
              == RunResult(BackupActions(path, noBackup) + WriteSchedule(path, parsed[path]).0, WriteSchedule(path, parsed[path]).1)
  {
    var path := Resolve(arg, files, dirs).value;
    BlankScheduleKeeps(floatOf, parsed[path], answers);
    RunUnfold(arg, files, dirs, parsed, floatOf, answers, noBackup);
  }
}

=== FILE: star.dfy ===
/** The tables the system passes around, abstracted from the STAR text format:
    a row maps column labels to values, a table is a sequence of rows, and the
    dashboard's columnar view is an ordered list of named columns (the order
    a parsed dictionary iterates in). */
module Star {
  import opened Wrappers

  datatype Value = Text(text: string) | Int(n: int) | Num(x: real)

  type Row = map<string, Value>

  type Table = seq<Row>

  datatype Column = Column(name: string, values: seq<Value>)

  type Columns = seq<Column>

  predicate HasColumn(cols: Columns, name: string) {
    exists k :: 0 <= k < |cols| && cols[k].name == name
  }

  /** `cols[name]`: the first column carrying that label. */
  function Lookup(cols: Columns, name: string): (r: Option<seq<Value>>)
    ensures r.Some? <==> HasColumn(cols, name)
    ensures r.Some? ==> Column(name, r.value) in cols
  {
    if cols == [] then None
    else if cols[0].name == name then Some(cols[0].values)
    else Lookup(cols[1..], name)
  }

  /** `dict.update`: every field of `over` is written over `base`. */
  function Overlay(base: Row, over: Row): (r: Row)
    ensures r.Keys == base.Keys + over.Keys
    ensures forall k :: k in over ==> r[k] == over[k]
    ensures forall k :: k in base && k !in over ==> r[k] == base[k]
  {
    base + over
  }

  /** Every row of `t` has every label of `names`. */
  predicate RowsHave(t: Table, names: seq<string>) {
    forall i, j :: 0 <= i < |t| && 0 <= j < |names| ==> names[j] in t[i]
  }

  /** The columnar view of a row table over the given labels: column `j`
      holds `names[j]` of every row, in row order. */
  function ToColumns(t: Table, names: seq<string>): (cols: Columns)
    requires RowsHave(t, names)
    ensures |cols| == |names|
    ensures forall j :: 0 <= j < |names| ==> cols[j].name == names[j] && |cols[j].values| == |t|
    ensures forall j, i :: 0 <= j < |names| && 0 <= i < |t| ==> cols[j].values[i] == t[i][names[j]]
  {
    seq(|names|, j requires 0 <= j < |names| => Column(names[j], seq(|t|, i requires 0 <= i < |t| => t[i][names[j]])))
  }
}

=== FILE: text.dfy ===
/** The pieces of Python's `str` behaviour the source relies on: whitespace
    classification, `split()`, `strip()`, `readline()`, `str(int)`, `int(str)`
    and `startswith`. Strings are sequences of Unicode scalar values. */
module Text {
  import opened Wrappers

  /** Python's `str.isspace()` for one character (the full Unicode list). */
  predicate IsSpace(c: char) {
    || c == ' '
    || ('\t' <= c <= '\r')
    || ('\U{1C}' <= c <= '\U{1F}')
    || c == '\U{85}' || c == '\U{A0}' || c == '\U{1680}'
    || ('\U{2000}' <= c <= '\U{200A}')
    || c == '\U{2028}' || c == '\U{2029}' || c == '\U{202F}'
    || c == '\U{205F}' || c == '\U{3000}'
  }

  predicate AllSpace(s: string) {
    forall i :: 0 <= i < |s| ==> IsSpace(s[i])
  }

  predicate HasSpace(s: string) {
    exists i :: 0 <= i < |s| && IsSpace(s[i])
  }

  predicate StartsWith(s: string, prefix: string) {
    prefix <= s
  }

  // ---------------------------------------------------------------------------
  // strip()

  function LStrip(s: string): (r: string)
    ensures |r| <= |s| && r == s[|s| - |r|..]
    ensures r == [] || !IsSpace(r[0])
    ensures forall i :: 0 <= i < |s| - |r| ==> IsSpace(s[i])
  {
    if s == [] || !IsSpace(s[0]) then s else LStrip(s[1..])
  }

  function RStrip(s: string): (r: string)
    ensures |r| <= |s| && r == s[..|r|]
    ensures r == [] || !IsSpace(r[|r| - 1])
    ensures forall i :: |r| <= i < |s| ==> IsSpace(s[i])
  {
    if s == [] || !IsSpace(s[|s| - 1]) then s else RStrip(s[..|s| - 1])
  }

  /** `str.strip()`: removes leading and trailing whitespace. */
  function Strip(s: string): (r: string)
    ensures |r| <= |s|
    ensures r == [] || (!IsSpace(r[0]) && !IsSpace(r[|r| - 1]))
  {
    var l := LStrip(s);
    var r := RStrip(l);
    assert r != [] ==> r[0] == l[0];
    r
  }

  /** `strip()` leaves nothing exactly when the string is all whitespace. */
  lemma StripEmpty(s: string)
    ensures Strip(s) == [] <==> forall i :: 0 <= i < |s| ==> IsSpace(s[i])
  {
    var l := LStrip(s);
    assert l != [] ==> !IsSpace(s[|s| - |l|]);
  }

  /** `strip()` cuts `s` into a whitespace prefix, the result and a
      whitespace suffix; the result starts where `lstrip()` stops. */
  lemma LStripDropsSpace(s: string)
    ensures AllSpace(s[..|s| - |LStrip(s)|])
  {
    var i := |s| - |LStrip(s)|;
    forall k | 0 <= k < i
      ensures IsSpace(s[..i][k])
    {
      assert s[..i][k] == s[k];
    }
  }

  lemma RStripDropsSpace(l: string)
    ensures AllSpace(l[|RStrip(l)|..])
  {
    var r := RStrip(l);
    forall k | 0 <= k < |l| - |r|
      ensures IsSpace(l[|r|..][k])
    {
      assert l[|r|..][k] == l[|r| + k];
    }
  }

  lemma StripUnfold(s: string)
    ensures Strip(s) == RStrip(LStrip(s))
  {
  }

  /** A prefix `r` of a suffix `l` of `s` cuts `s` into three pieces. */
  lemma PrefixOfSuffix(s: string, l: string, r: string)
    requires |l| <= |s| && l == s[|s| - |l|..]
    requires |r| <= |l| && r == l[..|r|]
    ensures s == s[..|s| - |l|] + r + s[|s| - |l| + |r|..]
    ensures s[|s| - |l| + |r|..] == l[|r|..]
  {
    var i := |s| - |l|;
    assert s == s[..i] + l;
    assert l == r + l[|r|..];
  }

  lemma StripIsInfix(s: string)
    ensures var i := |s| - |LStrip(s)|;
            var r := Strip(s);
            && i + |r| <= |s|
            && s == s[..i] + r + s[i + |r|..]
            && AllSpace(s[..i])
            && AllSpace(s[i + |r|..])
  {
    StripUnfold(s);
    LStripDropsSpace(s);
    RStripDropsSpace(LStrip(s));
    PrefixOfSuffix(s, LStrip(s), Strip(s));
  }




  /** Stripping twice strips nothing more. */
  lemma StripIdempotent(s: string)
    ensures Strip(Strip(s)) == Strip(s)
  {
    var r := Strip(s);
    if r != [] {
      assert LStrip(r) == r;
      assert RStrip(r) == r;
    }
  }

  // ---------------------------------------------------------------------------
  // split() with no separator

  /** Index of the first whitespace character at or after `i`, or `|s|`. */
  function TokenEnd(s: string, i: nat): (k: nat)
    requires i <= |s|
    ensures i <= k <= |s|
    ensures forall j :: i <= j < k ==> !IsSpace(s[j])
    ensures k == |s| || IsSpace(s[k])
    decreases |s| - i
  {
    if i == |s| || IsSpace(s[i]) then i else TokenEnd(s, i + 1)
  }

  /** `str.split()`: the maximal runs of non-whitespace characters, in order. */
  function Tokens(s: string): (ts: seq<string>)
    ensures forall t :: t in ts ==> t != [] && !HasSpace(t)
    decreases |s|
  {
    if s == [] then []
    else if IsSpace(s[0]) then Tokens(s[1..])
    else
      var k := TokenEnd(s, 0);
      [s[..k]] + Tokens(s[k..])
  }

  /** `file.readline()` in text mode, without its terminator: the text before
      the first line break ('\n', or '\r' under universal newlines). */
  function FirstLine(s: string): (line: string)
    ensures line <= s
    ensures forall i :: 0 <= i < |line| ==> line[i] != '\n' && line[i] != '\r'
    ensures |line| == |s| || s[|line|] == '\n' || s[|line|] == '\r'
  {
    if s == [] || s[0] == '\n' || s[0] == '\r' then [] else [s[0]] + FirstLine(s[1..])
  }

  // ---------------------------------------------------------------------------
  // Decimal integers

  predicate IsDigit(c: char) {
    '0' <= c <= '9'
  }

  function DigitChar(d: nat): (c: char)
    requires d < 10
    ensures IsDigit(c)
  {
    ['0', '1', '2', '3', '4', '5', '6', '7', '8', '9'][d]
  }

  function DigitValue(c: char): (d: nat)
    requires IsDigit(c)
    ensures d < 10
  {
    (c as int - '0' as int) as nat
  }

  /** `str(n)` for a non-negative integer. */
  function NatToDecimal(n: nat): (s: string)
    ensures s != []
    ensures forall i :: 0 <= i < |s| ==> IsDigit(s[i])
  {
    if n < 10 then [DigitChar(n)] else NatToDecimal(n / 10) + [DigitChar(n % 10)]
  }

  /** The number denoted by a string of decimal digits, most significant first. */
  function DigitsValue(s: string): nat
    requires forall i :: 0 <= i < |s| ==> IsDigit(s[i])
  {
    if s == [] then 0 else 10 * DigitsValue(s[..|s| - 1]) + DigitValue(s[|s| - 1])
  }

  /** The body of a Python integer literal as `int()` accepts it: ASCII digits,
      optionally grouped by single underscores between digits. */
  predicate IsDigitGroups(s: string) {
    && s != []
    && IsDigit(s[0]) && IsDigit(s[|s| - 1])
    && (forall i :: 0 <= i < |s| ==> IsDigit(s[i]) || s[i] == '_')
    && (forall i :: 0 <= i < |s| - 1 ==> s[i] == '_' ==> s[i + 1] != '_')
  }

  function DropUnderscores(s: string): (r: string)
    ensures forall i :: 0 <= i < |r| ==> r[i] != '_'
    ensures (forall i :: 0 <= i < |s| ==> IsDigit(s[i]) || s[i] == '_') ==>
              forall i :: 0 <= i < |r| ==> IsDigit(r[i])
  {
    if s == [] then [] else (if s[0] == '_' then [] else [s[0]]) + DropUnderscores(s[1..])
  }

  /** `int(s)` for a string without surrounding whitespace: an optional sign
      followed by digit groups; `None` stands for the `ValueError`. */
  function ParseInt(s: string): (r: Option<int>)
    ensures r.Some? <==> IsDigitGroups(if s != [] && (s[0] == '-' || s[0] == '+') then s[1..] else s)
    ensures r.Some? && s[0] != '-' ==> r.value >= 0
  {
    var neg := s != [] && s[0] == '-';
    var body := if s != [] && (s[0] == '-' || s[0] == '+') then s[1..] else s;
    if IsDigitGroups(body) then
      var v: int := DigitsValue(DropUnderscores(body));
      Some(if neg then -v else v)
    else None
  }

  lemma {:induction false} DigitsValueOfDecimal(n: nat)
    ensures DigitsValue(NatToDecimal(n)) == n
    decreases n
  {
    var s := NatToDecimal(n);
    if n >= 10 {
      DigitsValueOfDecimal(n / 10);
      assert s[..|s| - 1] == NatToDecimal(n / 10);
      assert DigitValue(DigitChar(n % 10)) == n % 10;
    } else {
      assert DigitValue(DigitChar(n)) == n;
    }
  }

  lemma {:induction false} DropUnderscoresOfDigits(s: string)
    requires forall i :: 0 <= i < |s| ==> IsDigit(s[i])
    ensures DropUnderscores(s) == s
  {
    if s != [] {
      DropUnderscoresOfDigits(s[1..]);
    }
  }

  /** `int(str(n)) == n`. */
  lemma ParseIntOfDecimal(n: nat)
    ensures ParseInt(NatToDecimal(n)) == Some(n)
  {
    var s := NatToDecimal(n);
    assert !(s[0] == '-' || s[0] == '+');
    DropUnderscoresOfDigits(s);
    DigitsValueOfDecimal(n);
  }

  /** A sign in front of digit groups: `-` negates the value and `+` leaves
      it; a sign in front of anything else, another sign included, is a
      `ValueError`. */
  lemma ParseIntSign(s: string)
    ensures ParseInt("-" + s) == (if IsDigitGroups(s) then Some(-ParseInt(s).value) else None)
    ensures ParseInt("+" + s) == (if IsDigitGroups(s) then ParseInt(s) else None)
  {
    assert ("-" + s)[1..] == s;
    assert ("+" + s)[1..] == s;
  }

  lemma {:induction false} DropUnderscoresAppend(a: string, b: string)
    ensures DropUnderscores(a + b) == DropUnderscores(a) + DropUnderscores(b)
  {
    if a != [] {
      assert (a + b)[1..] == a[1..] + b;
      DropUnderscoresAppend(a[1..], b);
    } else {
      assert a + b == b;
    }
  }

  /** Two digit groups written one after the other, or joined by a single
      underscore, are digit groups again. */
  lemma DigitGroupsConcat(a: string, b: string)
    requires IsDigitGroups(a) && IsDigitGroups(b)
    ensures IsDigitGroups(a + b)
  {
    var v := a + b;
    forall i | 0 <= i < |v|
      ensures IsDigit(v[i]) || v[i] == '_'
    {
      if i < |a| {
        assert v[i] == a[i];
      } else {
        assert v[i] == b[i - |a|];
      }
    }
    forall i | 0 <= i < |v| - 1 && v[i] == '_'
      ensures v[i + 1] != '_'
    {
      if i < |a| {
        assert v[i] == a[i];
        if i < |a| - 1 {
          assert v[i + 1] == a[i + 1];
        }
      } else {
        assert v[i] == b[i - |a|] && v[i + 1] == b[i - |a| + 1];
      }
    }
    assert v[|v| - 1] == b[|b| - 1];
  }

  lemma DigitGroupsUnderscore(a: string, b: string)
    requires IsDigitGroups(a) && IsDigitGroups(b)
    ensures IsDigitGroups(a + "_" + b)
  {
    var u := a + "_" + b;
    forall i | 0 <= i < |u|
      ensures IsDigit(u[i]) || u[i] == '_'
    {
      if i < |a| {
        assert u[i] == a[i];
      } else if i > |a| {
        assert u[i] == b[i - |a| - 1];
      }
    }
    forall i | 0 <= i < |u| - 1 && u[i] == '_'
      ensures u[i + 1] != '_'
    {
      if i < |a| {
        assert u[i] == a[i];
        if i < |a| - 1 {
          assert u[i + 1] == a[i + 1];
        }
      } else if i == |a| {
        assert u[i + 1] == b[0];
      } else {
        assert u[i] == b[i - |a| - 1] && u[i + 1] == b[i - |a|];
      }
    }
    assert u[|u| - 1] == b[|b| - 1];
  }

  /** An underscore between two digit groups is ignored: `int("1_000")`
      is `int("1000")`, and both are accepted. */
  lemma ParseIntUnderscore(a: string, b: string)
    requires IsDigitGroups(a) && IsDigitGroups(b)
    ensures ParseInt(a + "_" + b).Some?
    ensures ParseInt(a + "_" + b) == ParseInt(a + b)
  {
    DigitGroupsUnderscore(a, b);
    DigitGroupsConcat(a, b);
    assert (a + "_" + b)[0] == a[0] && (a + b)[0] == a[0];
    DropUnderscoresAround(a, b);
  }

  lemma DropUnderscoresAround(a: string, b: string)
    ensures DropUnderscores(a + "_" + b) == DropUnderscores(a + b)
  {
    DropUnderscoresAppend(a + "_", b);
    DropUnderscoresAppend(a, "_");
    DropUnderscoresAppend(a, b);
    assert DropUnderscores("_") == [];
  }

  lemma {:induction false} DigitsValueLeadingZero(d: string)
    requires forall i :: 0 <= i < |d| ==> IsDigit(d[i])
    ensures DigitsValue("0" + d) == DigitsValue(d)
    decreases |d|
  {
    var z := "0" + d;
    if d == [] {
      assert z[..|z| - 1] == [];
    } else {
      var init := d[..|d| - 1];
      assert z[..|z| - 1] == "0" + init;
      assert z[|z| - 1] == d[|d| - 1];
      DigitsValueLeadingZero(init);
    }
  }

  /** A leading zero does not change the value: `int("007")` is `int("7")`. */
  lemma ParseIntLeadingZero(s: string)
    requires IsDigitGroups(s)
    ensures ParseInt("0" + s).Some?
    ensures ParseInt("0" + s) == ParseInt(s)
  {
    assert IsDigitGroups("0");
    DigitGroupsConcat("0", s);
    DropUnderscoresAppend("0", s);
    assert DropUnderscores("0") == "0";
    DigitsValueLeadingZero(DropUnderscores(s));
  }

  // ---------------------------------------------------------------------------
  // Tokenising a line built from whitespace-free words

  lemma {:induction false} TokenEndOfWord(w: string, rest: string, i: nat)
    requires i <= |w|
    requires !HasSpace(w)
    requires rest == [] || IsSpace(rest[0])
    ensures TokenEnd(w + rest, i) == |w|
    decreases |w| - i
  {
    var s := w + rest;
    if i < |w| {
      assert s[i] == w[i];
      TokenEndOfWord(w, rest, i + 1);
    }
  }

  /** A leading whitespace-free word followed by whitespace (or nothing) is
      the first token. */
  lemma TokensOfWord(w: string, rest: string)
    requires w != [] && !HasSpace(w)
    requires rest == [] || IsSpace(rest[0])
    ensures Tokens(w + rest) == [w] + Tokens(rest)
  {
    var s := w + rest;
    assert s[0] == w[0];
    TokenEndOfWord(w, rest, 0);
    assert s[..|w|] == w;
    assert s[|w|..] == rest;
  }

  /** `split()` skips leading whitespace. */
  lemma {:induction false} TokensSkipsSpace(sp: string, t: string)
    requires AllSpace(sp)
    ensures Tokens(sp + t) == Tokens(t)
  {
    if sp != [] {
      var st := sp + t;
      assert st[0] == sp[0] && IsSpace(st[0]);
      assert Tokens(st) == Tokens(st[1..]);
      assert st[1..] == sp[1..] + t;
      assert forall i :: 0 <= i < |sp[1..]| ==> sp[1..][i] == sp[i + 1];
      TokensSkipsSpace(sp[1..], t);
    } else {
      assert sp + t == t;
    }
  }

  /** A word followed by a run of whitespace is the first token, and the
      run is skipped. */
  lemma TokensAfterWord(w: string, sp: string, rest: string)
    requires w != [] && !HasSpace(w)
    requires sp != [] && AllSpace(sp)
    ensures Tokens(w + sp + rest) == [w] + Tokens(rest)
  {
    var tail := sp + rest;
    assert tail[0] == sp[0];
    assert w + sp + rest == w + tail;
    TokensOfWord(w, tail);
    TokensSkipsSpace(sp, rest);
  }

  /** Three words, the last after a run of two spaces, split into three. */
  lemma TokensOfThree(a: string, b: string, c: string)
    requires a != [] && !HasSpace(a)
    requires b != [] && !HasSpace(b)
    requires c != [] && !HasSpace(c)
    ensures Tokens(a + " " + b + "  " + c) == [a, b, c]
  {
    var bc := b + "  " + c;
    assert a + " " + b + "  " + c == a + " " + bc;
    TokensAfterWord(a, " ", bc);
    TokensAfterWord(b, "  ", c);
    TokensOfWord(c, []);
    assert c + [] == c;
  }

  /** `"a b".split() == ["a", "b"]` for whitespace-free, non-empty `a`, `b`. */
  lemma TokensOfPair(a: string, b: string)
    requires a != [] && !HasSpace(a)
    requires b != [] && !HasSpace(b)
    ensures Tokens(a + " " + b) == [a, b]
  {
    TokensOfWord(a, " " + b);
    assert a + " " + b == a + (" " + b);
    assert (" " + b)[1..] == b;
    TokensOfWord(b, []);
    assert b + [] == b;
  }

  /** The first line of a string holding a single line-break-free line. */
  lemma {:induction false} FirstLineOfLine(line: string)
    requires forall i :: 0 <= i < |line| ==> line[i] != '\n' && line[i] != '\r'
    ensures FirstLine(line + "\n") == line
  {
    if line != [] {
      FirstLineOfLine(line[1..]);
      assert (line + "\n")[1..] == line[1..] + "\n";
    }
  }

  // ---------------------------------------------------------------------------
  // Case folding used by strtobool

  /** `str.lower()` restricted to the effect that matters for ASCII words:
      'A'..'Z' become 'a'..'z', every other character is kept. */
  function LowerAscii(s: string): (r: string)
    ensures |r| == |s|
    ensures forall i :: 0 <= i < |s| ==> ('A' <= s[i] <= 'Z' ==> r[i] == (s[i] as int + 32) as char)
    ensures forall i :: 0 <= i < |s| ==> (!('A' <= s[i] <= 'Z') ==> r[i] == s[i])
  {
    seq(|s|, i requires 0 <= i < |s| => LowerChar(s[i]))
  }

  function LowerChar(c: char): char {
    if 'A' <= c <= 'Z' then (c as int + 32) as char else c
  }
}

=== FILE: watcher.dfy ===
/** The progress watcher run after each CTF estimation job: it finds the
    motion-correction table the CTF results were computed from, appends the
    micrographs both stages have finished to the merged table, and writes the
    merged table, a one-line progress hint and the job's success sentinel. */
module Watcher {
  import opened Wrappers
  import opened Text
  import opened Paths
  import opened Star
  import Cache

  const MicrographNameLabel := "rlnMicrographName"
  const CorrectedMicrographsName := "corrected_micrographs.star"
  const MergedTableName := "micrographs.star"
  const HintFileName := ".mvf_progress_hint"
  const SuccessSentinelName := "RELION_JOB_EXIT_SUCCESS"

  datatype WatchError =
    | NoCtfRows                         // IndexError on the first CTF row
    | NoMicrographName                  // KeyError on rlnMicrographName
    | MicrographNameNotText
    | NonTerminating                    // splitall never returns on an absolute path
    | MissingMotionCorTable(path: string)
    | UnreadableOutput(path: string)    // the merged table exists but cannot be read

  /** The CTF job's output: an optics block passed through unchanged and the
      per-micrograph results. */
  datatype CtfStar = CtfStar(optics: Table, micrographs: Table)

  /** The files a run writes, in the order it writes them. */
  datatype FileWrite =
    | WriteTable(path: string, optics: Table, micrographs: Table)
    | WriteText(path: string, text: string)
    | Touch(path: string)

  function Min(a: int, b: int): int {
    if a <= b then a else b
  }

  function Max(a: int, b: int): int {
    if a >= b then a else b
  }

  /** How many rows beyond the first `n` both sources have. */
  function NewRowCount(n: nat, ctfLen: nat, mocoLen: nat): nat {
    Min(Max(0, ctfLen - n), Max(0, mocoLen - n))
  }

  /** Reference definition of the merged table: the previous rows, then for
      every index both sources reach beyond them, the CTF row overlaid with
      the motion-correction row. */
  function Merged(prev: Table, ctf: Table, moco: Table): Table {
    var n := |prev|;
    var k := NewRowCount(n, |ctf|, |moco|);
    prev + seq(k, i requires 0 <= i < k => Overlay(ctf[n + i], moco[n + i]))
  }

  /** The merge loop of the watcher: zip the two sources from the first index
      the previous output does not cover, overlay, append. The two rows at one
      index are never checked to name the same micrograph. */
  method MergeNewRows(prev: Table, ctf: Table, moco: Table) returns (merged: Table)
    ensures |merged| == |prev| + NewRowCount(|prev|, |ctf|, |moco|)
    ensures merged[..|prev|] == prev
    ensures forall j :: |prev| <= j < |merged| ==> j < |ctf| && j < |moco| && merged[j] == Overlay(ctf[j], moco[j])
    ensures merged == Merged(prev, ctf, moco)
  {
    merged := prev;
    var i := |prev|;
    while i < |ctf| && i < |moco|
      invariant |prev| <= i
      invariant |merged| == i
      invariant merged[..|prev|] == prev
      invariant i > |prev| ==> i <= |ctf| && i <= |moco|
      invariant forall j :: |prev| <= j < i ==> merged[j] == Overlay(ctf[j], moco[j])
    {
      merged := merged + [Overlay(ctf[i], moco[i])];
      i := i + 1;
    }
    MergedShape(prev, ctf, moco);
  }

  lemma MergedShape(prev: Table, ctf: Table, moco: Table)
    ensures |Merged(prev, ctf, moco)| == |prev| + NewRowCount(|prev|, |ctf|, |moco|)
    ensures Merged(prev, ctf, moco)[..|prev|] == prev
    ensures forall j :: |prev| <= j < |Merged(prev, ctf, moco)| ==>
              j < |ctf| && j < |moco| && Merged(prev, ctf, moco)[j] == Overlay(ctf[j], moco[j])
  {
  }

  /** With no source row beyond the previous output, the merge changes
      nothing; and it changes nothing only then. */
  lemma MergeUnchangedIff(prev: Table, ctf: Table, moco: Table)
    ensures Merged(prev, ctf, moco) == prev <==> |ctf| <= |prev| || |moco| <= |prev|
  {
    MergedShape(prev, ctf, moco);
  }

  /** Re-running the merge on its own output adds no rows. */
  lemma MergeIdempotent(prev: Table, ctf: Table, moco: Table)
    ensures Merged(Merged(prev, ctf, moco), ctf, moco) == Merged(prev, ctf, moco)
  {
    var m := Merged(prev, ctf, moco);
    MergedShape(prev, ctf, moco);
    MergeUnchangedIff(m, ctf, moco);
  }

  /** A first run over two sources of equal length `n` yields `n` rows, row
      `i` being the overlay of the two rows at `i`. */
  lemma MergeFromEmpty(ctf: Table, moco: Table)
    requires |ctf| == |moco|
    ensures |Merged([], ctf, moco)| == |ctf|
    ensures forall i :: 0 <= i < |ctf| ==> Merged([], ctf, moco)[i] == Overlay(ctf[i], moco[i])
  {
    MergedShape([], ctf, moco);
  }

  /** Merging never drops a finished row: a longer previous output is kept whole. */
  lemma MergeExtends(prev: Table, ctf: Table, moco: Table)
    ensures prev <= Merged(prev, ctf, moco)
    ensures |Merged(prev, ctf, moco)| == Max(|prev|, Min(|ctf|, |moco|))
  {
    MergedShape(prev, ctf, moco);
  }

  // ---------------------------------------------------------------------------
  // Locating the motion-correction table

  /** The motion-correction job's table: the first two components of the
      first CTF row's micrograph name, joined with `corrected_micrographs.star`. */
  function MotionCorTablePath(ctfRows: Table): (r: Result<string, WatchError>)
    ensures r.Ok? <==>
              && ctfRows != []
              && MicrographNameLabel in ctfRows[0]
              && ctfRows[0][MicrographNameLabel].Text?
              && !IsAbs(ctfRows[0][MicrographNameLabel].text)
    ensures r.Ok? ==> Split(r.value).1 == CorrectedMicrographsName
    ensures r == Err(NonTerminating) <==>
              && ctfRows != []
              && MicrographNameLabel in ctfRows[0]
              && ctfRows[0][MicrographNameLabel].Text?
              && IsAbs(ctfRows[0][MicrographNameLabel].text)
  {
    if ctfRows == [] then Err(NoCtfRows)
    else if MicrographNameLabel !in ctfRows[0] then Err(NoMicrographName)
    else match ctfRows[0][MicrographNameLabel]
      case Text(name) => if IsAbs(name) then Err(NonTerminating) else Ok(MotionCorPathOfName(name))
      case _ => Err(MicrographNameNotText)
  }

  /** `join(*splitall(name)[:2], 'corrected_micrographs.star')` for a relative name. */
  function MotionCorPathOfName(name: string): (p: string)
    requires !IsAbs(name)
    ensures Split(p).1 == CorrectedMicrographsName
  {
    var parts := SplitAll(name);
    var init := parts[..Min(2, |parts|)];
    CorrectedNameHasNoSlash();
    TailOfJoinAll(init, CorrectedMicrographsName);
    JoinAll(init + [CorrectedMicrographsName])
  }

  lemma CorrectedNameHasNoSlash()
    ensures NoSlash(CorrectedMicrographsName)
  {
  }

  lemma TailOfJoinAll(init: seq<string>, last: string)
    requires NoSlash(last)
    ensures Split(JoinAll(init + [last])).1 == last
  {
    var parts := init + [last];
    if |parts| == 1 {
      SplitOfComponent(last);
    } else {
      assert parts[..|parts| - 1] == init;
      TailOfJoin(JoinAll(init), last);
    }
  }

  /** For a micrograph name `a/b/...` the table is `a/b/corrected_micrographs.star`. */
  lemma MotionCorTablePathOfName(ctfRows: Table, parts: seq<string>)
    requires WellFormedParts(parts) && |parts| >= 2 && parts[1] != []
    requires ctfRows != [] && MicrographNameLabel in ctfRows[0]
    requires ctfRows[0][MicrographNameLabel] == Text(JoinSlash(parts))
    ensures MotionCorTablePath(ctfRows) == Ok(parts[0] + "/" + parts[1] + "/" + CorrectedMicrographsName)
  {
    MotionCorPathOfParts(parts);
  }

  lemma MotionCorPathOfParts(parts: seq<string>)
    requires WellFormedParts(parts) && |parts| >= 2 && parts[1] != []
    ensures !IsAbs(JoinSlash(parts))
    ensures MotionCorPathOfName(JoinSlash(parts)) == parts[0] + "/" + parts[1] + "/" + CorrectedMicrographsName
  {
    SplitAllJoin(parts);
    assert NoSlash(parts[0]) && NoSlash(parts[1]) && parts[0] != [];
    MotionCorPathOfPrefix(JoinSlash(parts), parts[0], parts[1]);
  }

  lemma MotionCorPathOfPrefix(name: string, a: string, b: string)
    requires !IsAbs(name) && |SplitAll(name)| >= 2
    requires SplitAll(name)[0] == a && SplitAll(name)[1] == b
    requires a != [] && b != [] && NoSlash(a) && NoSlash(b)
    ensures MotionCorPathOfName(name) == a + "/" + b + "/" + CorrectedMicrographsName
  {
    MotionCorPathUnfold(name);
    CorrectedNameHasNoSlash();
    JoinOfThree(a, b, CorrectedMicrographsName);
  }

  lemma MotionCorPathUnfold(name: string)
    requires !IsAbs(name) && |SplitAll(name)| >= 2
    ensures MotionCorPathOfName(name) ==
              JoinAll([SplitAll(name)[0], SplitAll(name)[1], CorrectedMicrographsName])
  {
    var parts := SplitAll(name);
    var init := parts[..Min(2, |parts|)];
    assert Min(2, |parts|) == 2;
    TakeTwo(parts);
    assert init + [CorrectedMicrographsName] == [parts[0], parts[1], CorrectedMicrographsName];
  }

  lemma TakeTwo<T>(xs: seq<T>)
    requires |xs| >= 2
    ensures xs[..2] == [xs[0], xs[1]]
  {
  }

  lemma ConstantNamesHaveNoSlash()
    ensures NoSlash(CorrectedMicrographsName) && NoSlash(MergedTableName)
    ensures NoSlash(SuccessSentinelName) && NoSlash(HintFileName)
  {
  }

  lemma JoinOfThree(a: string, b: string, c: string)
    requires a != [] && b != [] && NoSlash(a) && NoSlash(b) && NoSlash(c)
    ensures JoinAll([a, b, c]) == a + "/" + b + "/" + c
  {
    var three := [a, b, c];
    assert three[..2] == [a, b];
    assert [a, b][..1] == [a];
    assert a[|a| - 1] != '/';
    assert b[0] != '/';
    assert JoinAll([a, b]) == a + "/" + b;
    var ab := a + "/" + b;
    assert ab[|ab| - 1] == b[|b| - 1] != '/';
    if c != [] {
      assert c[0] != '/';
    }
  }

  // ---------------------------------------------------------------------------
  // One run

  /** The merged table's path: its last component is the table's name, and
      under a normalised directory its directory is `outDir` itself. */
  function OutputPath(outDir: string): (p: string)
    ensures Split(p).1 == MergedTableName
    ensures IsNormalDir(outDir) ==> Dirname(p) == outDir
  {
    ConstantNamesHaveNoSlash();
    TailOfJoin(outDir, MergedTableName);
    if IsNormalDir(outDir) then
      DirnameOfJoin(outDir, MergedTableName);
      Join(outDir, MergedTableName)
    else Join(outDir, MergedTableName)
  }

  /** The hint line: the merged table's path, a space, the row count in
      decimal, a newline. For a path that is one word the dashboard's hint
      parser reads back exactly that path and count. */
  function HintLine(path: string, count: nat): (line: string)
    ensures path != [] && !HasSpace(path) ==> Cache.ParseHint(line) == Ok((path, count))
  {
    if path != [] && !HasSpace(path) then
      Cache.HintRoundTrip(path, count);
      path + " " + NatToDecimal(count) + "\n"
    else path + " " + NatToDecimal(count) + "\n"
  }

  /** The previous merged rows: none when no file exists at `outPath`, the
      file's rows when it exists and can be read, and an error when it exists
      but cannot be read. */
  function PreviousOutput(files: map<string, Table>, existing: set<string>, outPath: string): (r: Result<Table, WatchError>)
    ensures outPath !in existing ==> r == Ok([])
    ensures outPath in existing && outPath in files ==> r == Ok(files[outPath])
    ensures r.Err? <==> outPath in existing && outPath !in files
  {
    if outPath !in existing then Ok([])
    else if outPath in files then Ok(files[outPath])
    else Err(UnreadableOutput(outPath))
  }

  /** One watcher run. `files` maps each path whose micrographs table can be
      read to that table; `existing` is the set of paths that are files. */
  function RunWatcher(outDir: string, ctf: CtfStar, files: map<string, Table>, existing: set<string>)
    : (r: Result<seq<FileWrite>, WatchError>)
    ensures r.Ok? <==>
              && MotionCorTablePath(ctf.micrographs).Ok? && MotionCorTablePath(ctf.micrographs).value in files
              && (OutputPath(outDir) in existing ==> OutputPath(outDir) in files)
    ensures r.Ok? ==>
              var mocoPath := MotionCorTablePath(ctf.micrographs).value;
              var prev := PreviousOutput(files, existing, OutputPath(outDir)).value;
              var merged := Merged(prev, ctf.micrographs, files[mocoPath]);
              r.value == [ WriteTable(OutputPath(outDir), ctf.optics, merged),
                           WriteText(HintFileName, HintLine(OutputPath(outDir), |merged|)),
                           Touch(Join(outDir, SuccessSentinelName)) ]
  {
    var mocoPath :- MotionCorTablePath(ctf.micrographs);
    if mocoPath !in files then Err(MissingMotionCorTable(mocoPath))
    else
      var out := OutputPath(outDir);
      match PreviousOutput(files, existing, out)
      case Err(e) => Err(e)
      case Ok(prev) =>
        var merged := Merged(prev, ctf.micrographs, files[mocoPath]);
        Ok([ WriteTable(out, ctf.optics, merged),
             WriteText(HintFileName, HintLine(out, |merged|)),
             Touch(Join(outDir, SuccessSentinelName)) ])
  }

  /** A merged table that exists but cannot be read stops the run before
      anything is written; in particular the existing output is never
      replaced by the new rows alone. */
  lemma UnreadableOutputStopsRun(outDir: string, ctf: CtfStar, files: map<string, Table>, existing: set<string>)
    requires MotionCorTablePath(ctf.micrographs).Ok? && MotionCorTablePath(ctf.micrographs).value in files
    requires OutputPath(outDir) in existing && OutputPath(outDir) !in files
    ensures RunWatcher(outDir, ctf, files, existing) == Err(UnreadableOutput(OutputPath(outDir)))
  {
  }

  /** The merged table a successful run writes. */
  function WrittenTable(writes: seq<FileWrite>): Table
    requires |writes| >= 1 && writes[0].WriteTable?
  {
    writes[0].micrographs
  }

  /** The hint text a successful run writes (empty for any other list). */
  function WrittenHint(writes: seq<FileWrite>): string {
    if |writes| >= 2 && writes[1].WriteText? then writes[1].text else []
  }

  /** A successful run writes the merged table first, then the hint that
      announces its exact row count, and touches the success sentinel last;
      rows of the previous output are kept in place. */
  lemma RunWatcherOrder(outDir: string, ctf: CtfStar, files: map<string, Table>, existing: set<string>)
    requires RunWatcher(outDir, ctf, files, existing).Ok?
    ensures var ws := RunWatcher(outDir, ctf, files, existing).value;
            && |ws| == 3
            && ws[0].WriteTable? && ws[0].path == OutputPath(outDir) && ws[0].optics == ctf.optics
            && PreviousOutput(files, existing, OutputPath(outDir)).value <= ws[0].micrographs
            && ws[1] == WriteText(HintFileName, HintLine(ws[0].path, |ws[0].micrographs|))
            && ws[2].Touch? && Split(ws[2].path).1 == SuccessSentinelName
  {
    var mocoPath := MotionCorTablePath(ctf.micrographs).value;
    var prev := PreviousOutput(files, existing, OutputPath(outDir)).value;
    MergeExtends(prev, ctf.micrographs, files[mocoPath]);
    ConstantNamesHaveNoSlash();
    TailOfJoin(outDir, SuccessSentinelName);
  }

  /** The merged table never lives where the motion-correction table is read
      from, because their final components differ. */
  lemma OutputIsNotMotionCorTable(outDir: string, ctfRows: Table)
    requires MotionCorTablePath(ctfRows).Ok?
    ensures OutputPath(outDir) != MotionCorTablePath(ctfRows).value
  {
    var moco := MotionCorTablePath(ctfRows).value;
    assert Split(moco).1 == CorrectedMicrographsName;
    ConstantNamesHaveNoSlash();
    TailOfJoin(outDir, MergedTableName);
    ConstantNamesDiffer();
  }

  lemma ConstantNamesDiffer()
    ensures MergedTableName != CorrectedMicrographsName
  {
    assert |MergedTableName| != |CorrectedMicrographsName|;
  }

  /** Running the watcher again after its own output was written, with no new
      source rows, writes exactly the same files. */
  lemma RerunIsStable(outDir: string, ctf: CtfStar, files: map<string, Table>, existing: set<string>)
    requires RunWatcher(outDir, ctf, files, existing).Ok?
    ensures var ws := RunWatcher(outDir, ctf, files, existing).value;
            var out := OutputPath(outDir);
            RunWatcher(outDir, ctf, files[out := WrittenTable(ws)], existing + {out}) == Ok(ws)
  {
    var ws := RunWatcher(outDir, ctf, files, existing).value;
    var out := OutputPath(outDir);
    var mocoPath := MotionCorTablePath(ctf.micrographs).value;
    OutputIsNotMotionCorTable(outDir, ctf.micrographs);
    var files' := files[out := WrittenTable(ws)];
    assert files'[mocoPath] == files[mocoPath];
    var prev := PreviousOutput(files, existing, out).value;
    assert PreviousOutput(files', existing + {out}, out) == Ok(WrittenTable(ws));
    MergeIdempotent(prev, ctf.micrographs, files[mocoPath]);
  }
}

=== FILE: wrappers.dfy ===
/** Failure-carrying datatypes used throughout the model: Python's
    `None`-or-value and value-or-exception outcomes. */
module Wrappers {

  datatype Option<+T> = None | Some(value: T)

  /** The outcome of an operation that in the source either returns or raises. */
  datatype Result<+T, +E> = Ok(value: T) | Err(error: E) {
    predicate IsFailure() {
      Err?
    }

    function PropagateFailure<U>(): Result<U, E>
      requires Err?
    {
      Err(error)
    }

    function Extract(): T
      requires Ok?
    {
      value
    }
  }
}
